=== FILE: README.md ===
# USB audio gateware: control-request handler and I2S transmitter

This project models two clocked state machines from the HeadphoneAmp audio
gateware and proves what they do, tick by tick and over whole transfers
and words.

- `AudioRequest` (request.dfy) models `AudioRequestHandler`. It handles the
  USB Audio Class 3.0 class-specific `CUR` request over the SETUP / data /
  status sequence of a USB 2.0 control transfer (section 9.3 of the USB 2.0
  specification). It serves one control, the power domain, which is backed
  by the persisted 8-bit register `powerState`.
  - Its registers are the FSM state (`IDLE`, `HANDLE_CURRENT`, `UNHANDLED`),
    `rxTriggered` and `powerState`. They are the fields of the class
    `AudioRequestHandler`.
  - `Tick` takes the transaction-layer pulses and the receive adapter's
    `done`/data as inputs. It returns the combinational handshake outputs and
    updates the registers.
  - `NextRegs` and `Out` state one tick as functions, and `Tick` is proved
    equal to them.
  - The selector decoders (`HandlerCondition`, `AddressesPowerDomain`,
    `LengthForCurrent`, `SettingForCurrent`, `SettingFromCurrent`) are pure
    functions.
- `I2STransmitter` (i2s.dfy) models `I2S`, an I2S transmitter (Philips I2S
  bus: word select leads the MSB by one bit, data goes out MSB first).
  - The class `I2S` holds the registers `fsm`, `clkCounter`, `audioClk`,
    `sampleBit`, `lastBit`, `channelCurrent`, `channelNext` and `sampleLatch`.
  - `Tick` advances one `sync` tick and is proved equal to `Next`.
  - The bus lines (`Bus`) and `NeedSample` are functions of the registers.
- `Bits` (bits.dfy) holds the fixed-width value types and the Amaranth slice
  `x[lo:hi]`, which is half-open: `index[0:7]` is bits 0 to 6.

Amaranth semantics, as modelled:
- `sync`/`usb` assignments take effect at the next tick.
- `comb` outputs read the current registers and inputs, and read 0 when not
  driven.
- A later assignment to the same signal in a tick overrides an earlier one.
  For example, the IDLE state's `sampleLatch := 0` overrides the
  unconditional `sampleLatch := channelCurrent`.
- Registers wrap at their width: `clkCounter` is 3 bits and `sampleBit` is
  5 bits.
- `sampleBits - sampleBit` is a 6-bit unsigned difference.
- Indexing the 24-entry bit array past its end yields the last entry.

Two things the code does that a reader may not expect:
- `needSample` is `~channelCurrent & sampleLatch`. So it pulses once per
  stereo frame, on the tick after the active channel changes from Right to
  Left. It does not pulse once per channel word.
- After start-up the first falling edge finds `sampleBit == sampleBits` and
  copies `channelNext` (Right) into `channelCurrent`. So the first word on
  the bus is a Right word (lemma `StartUp`).

## Model

| member | source | states |
|---|---|---|
| `AudioRequest.HandlerCondition` | gateware/audioInterface/usb/control/request.py:116-120 | The eligibility test: the request is of type CLASS and recipient INTERFACE. `IneligibleRequestIgnored` and the `NextRegs`/`Out` contracts pin down what follows from it. |
| `AudioRequest.IneligibleRequestIgnored` | gateware/audioInterface/usb/control/request.py:35 | While the SETUP fails `HandlerCondition`, any tick sequence leaves every register as it was and drives no output on any tick. |
| `AudioRequest.AddressesPowerDomain` | gateware/audioInterface/usb/control/request.py:127-128 | The selector test, with the half-open slices `[0:7]` and `[8:15]`. `PowerDomainWords` gives the words it accepts. |
| `AudioRequest.PowerDomainWords` | gateware/audioInterface/usb/control/request.py:127-128 | The selector test holds exactly when index is one of 0x0B00, 0x0B80, 0x8B00, 0x8B80 and value is one of the four words with bits 0-6 zero and bits 8-14 equal to `AC_POWER_DOMAIN_CONTROL`. This is an independent reference for the bit-slice test. |
| `AudioRequest.SelectorIgnoresBits7And15` | gateware/audioInterface/usb/control/request.py:127-128 | In an index and a value whose bits 7 and 15 are clear, setting bit 7 or bit 15 (adding 0x80 or 0x8000), in any combination, never changes whether a request addresses the power domain, because the half-open slices `[0:7]` and `[8:15]` leave those bits out. |
| `AudioRequest.LengthForCurrent` | gateware/audioInterface/usb/control/request.py:122-131 | The resolved length is at most 1. It is 1 exactly when index and value are among the power-domain words, and 0 otherwise. |
| `AudioRequest.SettingForCurrent` | gateware/audioInterface/usb/control/request.py:133-142 | The reported length is `LengthForCurrent`. A nonzero setting is reported only for the power domain, and there the setting is `powerState`. |
| `AudioRequest.SettingFromCurrent` | gateware/audioInterface/usb/control/request.py:144-148 | For the power domain, the committed setting is the low byte of the received payload (the 8-bit register truncates it). For any other selector, `powerState` is kept. |
| `AudioRequest.NextRegs` | gateware/audioInterface/usb/control/request.py:35-112 | An ineligible request (not CLASS/INTERFACE) changes no register. `powerState` changes only when an armed SET of the power domain completes, and then it takes the payload's low byte. `rxTriggered` rises only in a SET after a length match. Every eligible IDLE tick disarms the receiver, so each transfer starts disarmed. Once armed, it stays armed until the FSM is back in IDLE. UNHANDLED never moves to HANDLE_CURRENT. |
| `AudioRequest.Out` | gateware/audioInterface/usb/control/request.py:35-112 | Nothing is driven for an ineligible request or in IDLE. Every stall returns the FSM to IDLE and never starts an adapter. The transmitter starts only on a GET data request whose declared length matches. Only the power domain reports a nonzero value, and it reports `powerState`. The receiver starts only while disarmed and after a length match. Because `NextRegs` keeps it armed until IDLE, it starts at most once per transfer. A ZLP is sent only in a SET's status stage. |
| `AudioRequest.AudioRequestHandler.Tick` | gateware/audioInterface/usb/control/request.py:35-112 | The register-level tick, written with Amaranth's later-assignment-wins order. Its outputs equal `Out` and its new registers equal `NextRegs` of the old registers. |
| `AudioRequest.AudioRequestHandler.constructor` | gateware/audioInterface/usb/control/request.py:18-28 | Reset: IDLE, receiver disarmed, `powerState` 0. |
| `AudioRequest.PowerStateKeptUnlessMatched` | gateware/audioInterface/usb/control/request.py:83-93 | For a fixed SETUP, `powerState` survives any tick sequence in two cases: the request addresses a foreign selector, or it addresses the power domain with a declared length other than 1 (starting disarmed). |
| `AudioRequest.QuietTicksHold` | gateware/audioInterface/usb/control/request.py:50-112 | While the handler waits for the host (a GET or an armed SET in HANDLE_CURRENT, or UNHANDLED), any run of ticks without a transaction-layer pulse changes no register and drives no handshake or adapter start. |
| `AudioRequest.PacingIrrelevant` | gateware/audioInterface/usb/control/request.py:35-112 | A transfer whose stages are separated by waits of any length is equivalent to its stages back to back. It ends in the same registers, each stage tick drives the same outputs, and every waiting tick is silent. The only condition is that the handler is waiting wherever a wait is inserted. |
| `AudioRequest.WellFormedNeverStalls` | gateware/audioInterface/usb/control/request.py:62-89 | Starting from any state but UNHANDLED, a well-formed `CUR` (eligible, declared length equal to the resolved one) is never stalled, over any sequence of ticks carrying it, whatever pulses they hold. From UNHANDLED, left by a non-`CUR` SETUP, its data or status request is stalled. |
| `AudioRequest.SetCompletes` | gateware/audioInterface/usb/control/request.py:74-104 | A well-formed SET `CUR`, with a wait of any length before each of its data, ready, status and ACK stages, never stalls. It arms the receiver, ACKs the OUT data, sends the status ZLP and returns to IDLE with `SettingFromCurrent` committed. |
| `AudioRequest.GetReports` | gateware/audioInterface/usb/control/request.py:51-72 | A well-formed GET `CUR` with a data stage, carrying the host's ACK of the IN data and with a pulse-free wait of any length before its data, ACK and status stages, starts the transmitter (on the data-request tick only) with the addressed setting and length. It drives nothing on the host's ACK and ACKs the status stage. It returns to IDLE and changes only `rxTriggered` (cleared). |
| `AudioRequest.SetThenGetRoundTrip` | gateware/audioInterface/usb/control/request.py:51-93 | A SET of the power domain with payload V, followed by a GET, transmits V's low byte. Each transfer has all its stages, the GET's ACK of its IN data included, and pulse-free waits of any length between them. |
| `AudioRequest.GetIsIdempotent` | gateware/audioInterface/usb/control/request.py:51-72 | Two consecutive GETs, each with all its stages (the host's ACK of the IN data included) and pulse-free waits of any length between them, produce identical data-stage outputs. |
| `AudioRequest.SetNoDataCompletes` | gateware/audioInterface/usb/control/request.py:74-104 | A well-formed SET `CUR` with wLength 0 (no data stage: SETUP, status, host ACK), with a pulse-free wait of any length before its status and ACK stages, never stalls. It arms the receiver with length 0, sends the status ZLP and returns to IDLE armed, with `powerState` unchanged. |
| `AudioRequest.GetNoDataAcks` | gateware/audioInterface/usb/control/request.py:51-72 | A well-formed GET `CUR` with wLength 0 (no data stage: SETUP, status) is ACKed at its status stage after a pulse-free wait of any length. It never stalls there, starts no transmitter, is silent before the status stage and returns to IDLE with only `rxTriggered` (cleared) changed. |
| `AudioRequest.LengthMismatchStalls` | gateware/audioInterface/usb/control/request.py:62-89 | A `CUR` whose declared length differs from the resolved length stalls. A GET stalls when the host requests its data, after a wait of any length. A SET stalls on its first HANDLE_CURRENT tick, with no transaction pulse needed. Every earlier tick is silent. The stall starts no adapter and returns to IDLE with `powerState` unchanged. |
| `AudioRequest.UnknownRequestStalls` | gateware/audioInterface/usb/control/request.py:38-112 | A non-`CUR` request goes IDLE → UNHANDLED. It is stalled (and nothing else is driven) at the host's first data or status request, however many pulse-free ticks come before it. The ticks before it are silent, and the FSM returns to IDLE with `powerState` unchanged. |
| `I2STransmitter.Next` | gateware/audioInterface/audio/i2s.py:32-68 | RUN never returns to IDLE. IDLE is left exactly when width and divider are both nonzero, and then the counter is loaded with the divider, `sampleBit` with `sampleBits` and `lastBit` with `sampleBits - 1`. Every IDLE tick resets the channels to Left/Right and the latch to 0. The invariant `Valid` is preserved under a fixed configuration. In RUN the latch holds the previous channel. The clock toggles exactly when the counter equals the divider. The channels change only on a falling toggle, and the look-ahead channel flips only when `sampleBit == lastBit`. |
| `I2STransmitter.I2S.Tick` | gateware/audioInterface/audio/i2s.py:33-68 | The register-level tick, written with Amaranth's later-assignment-wins order. Its new registers equal `Next` of the old ones. |
| `I2STransmitter.I2S.constructor` | gateware/audioInterface/audio/i2s.py:24-32 | Reset values: IDLE, counter 0, clock high, bit 0, channels Left/Right, latch 0. |
| `I2STransmitter.Ticks` | gateware/audioInterface/audio/i2s.py:36-68 | Over any number of ticks with a fixed configuration, `Valid` (`clkCounter <= clkDivider`, `sampleBit <= sampleBits`, `lastBit == sampleBits - 1`) is kept and RUN is kept. |
| `I2STransmitter.DataIndex` | gateware/audioInterface/audio/i2s.py:74 | The selected bit index fits the 6-bit difference. When `sampleBit <= sampleBits` it is exactly `sampleBits - sampleBit`, with no wrap. |
| `I2STransmitter.Bus` | gateware/audioInterface/audio/i2s.py:70-75 | The bit clock line is `audioClk`, so `HalfPeriod` and `BitPeriod` describe the line. `rnl` shows the look-ahead channel. When `sampleBit <= sampleBits < 24`, `data` is bit `sampleBits - sampleBit` of the active channel's sample. |
| `I2STransmitter.HalfPeriod` | gateware/audioInterface/audio/i2s.py:51-55 | From a toggle, the clock line holds its level for `clkDivider + 1` ticks and then toggles. The bit state advances only if that toggle is the falling one. |
| `I2STransmitter.BitPeriod` | gateware/audioInterface/audio/i2s.py:51-68 | A bit-clock period is `2 * (clkDivider + 1)` ticks and advances the bit state by exactly one falling edge. |
| `I2STransmitter.TicksFollowEdges` | gateware/audioInterface/audio/i2s.py:51-68 | n bit-clock periods of ticks leave the bit state where n falling edges put it. |
| `I2STransmitter.FallingEdge` | gateware/audioInterface/audio/i2s.py:57-65 | What one falling toggle does to the bit state. `lastBit` is kept. `sampleBit` stays within the word. The active channel takes the look-ahead. The look-ahead flips only when `sampleBit == lastBit` and the word is not over. `Word` and `Alternation` state what successive edges do. |
| `I2STransmitter.Word` | gateware/audioInterface/audio/i2s.py:57-65 | A word takes `sampleBits + 1` falling edges. During it, `sampleBit` counts 0, 1, ... on the active channel. Word select flips one bit before the word ends, and the next word starts on the other channel. |
| `I2STransmitter.Alternation` | gateware/audioInterface/audio/i2s.py:57-65 | Over any number of words, the active channel alternates strictly, with no repeats and no skips. |
| `I2STransmitter.WordInTicks` | gateware/audioInterface/audio/i2s.py:51-65 | In ticks, a word lasts `(sampleBits + 1) * 2 * (clkDivider + 1)` and hands over to the other channel. |
| `I2STransmitter.OneNeedSamplePerFrame` | gateware/audioInterface/audio/i2s.py:32-65 | From the first tick of a Right word (RUN, counter 0, clock low), over the `2 * (sampleBits + 1) * 2 * (clkDivider + 1)` ticks of the Right word and the Left word, `needSample` is high on exactly one tick: the first tick of the Left word. |
| `I2STransmitter.NeedSample` | gateware/audioInterface/audio/i2s.py:32-34 | `needSample` is the active channel being Left AND the latched previous channel (`~channelCurrent & sampleLatch`). `NeedSampleMarksLeftWord` and `OneNeedSamplePerFrame` pin down when it is high. |
| `I2STransmitter.NeedSampleMarksLeftWord` | gateware/audioInterface/audio/i2s.py:32-34 | `needSample` is high exactly on the tick after a RUN tick that moved the active channel from Right to Left, and it stays high for one tick only. |
| `I2STransmitter.MsbFirst` | gateware/audioInterface/audio/i2s.py:70-74 | Along a word, after k falling edges the data line carries bit `sampleBits - k` of the active sample, so the word goes out MSB first. |
| `I2STransmitter.StartUp` | gateware/audioInterface/audio/i2s.py:36-63 | From reset with nonzero settings, the second tick begins the first word: RUN, counter 0, clock low, `sampleBit` 0, channel Right. |

## Left out

- The pin binding `platform.request('i2s', 0)`. The bus lines are the outputs of `Bus`.
- The byte streaming of `StreamSerializer` and `StreamDeserializer`, and the `stream.connect` wiring to the USB streams. Only their start triggers, maximum lengths, transmit data, and the receiver's `done`/data inputs are modelled. The deserializer is not part of this model. Its two-byte payload is taken as `Cat(data)`, with the first byte lowest.
- The LUNA transaction layer (packet framing, CRC, NAK/retry). Its pulses (`received`, `data_requested`, `status_requested`, `rx_ready_for_response`, `handshakes_in.ack`) are free per-tick inputs. `send_zlp()` is the `zlp` output.
- The values of `CUR` (0x01) and `AC_POWER_DOMAIN_CONTROL` (0x02) are those of the USB Audio Class 3.0. No proof depends on the value of `CUR`. `PowerDomainWords`, and through it the ensures of `LengthForCurrent`, need `AC_POWER_DOMAIN_CONTROL` and the power domain's entity ID 11 (`POWER_DOMAIN_ENTITY`, the high byte of wIndex; the low byte is interface 0) to be below 0x80, so that each fits the seven compared bits. `SelectorIgnoresBits7And15` holds for any values.
- Reconfiguring the divider or width while RUN is in progress. `Next` accepts a configuration each tick and wraps the counters as the registers do, but every multi-tick lemma assumes the configuration is fixed.
- The S/PDIF block handler test (gateware/audioInterface/sim/audio/spdif/blockHandler.py). It is a simulation coroutine for a module whose source is not part of this model.
- Clock frequencies and the interaction between the `usb` and `sync` clock domains. Each machine is modelled in its own single-clock tick.
- Waits with pulses in them. The paced transfer lemmas insert waits of pulse-free ticks between stages, and each stage tick carries its own pulse. Other orders and combinations of pulses are covered only by the lemmas that hold for any tick sequence: `WellFormedNeverStalls`, `PowerStateKeptUnlessMatched` and `IneligibleRequestIgnored`.
- A SETUP arriving in the middle of a transfer. The model does whatever the code does (HANDLE_CURRENT and UNHANDLED ignore `received`), but no lemma is stated about it.

=== FILE: bits.dfy ===
/** Fixed-width register values and bit slicing, as Amaranth signals use them. */
module Bits {

  /** Unsigned values of the signal widths the gateware declares. */
  type u3 = x: nat | x < 0x8
  type u5 = x: nat | x < 0x20
  type u8 = x: nat | x < 0x100
  type u16 = x: nat | x < 0x1_0000
  type u24 = x: nat | x < 0x100_0000

  function Pow2(n: nat): (p: nat)
    ensures p >= 1
  {
    if n == 0 then 1 else 2 * Pow2(n - 1)
  }

  /** The Amaranth slice `x[lo:hi]`: bits lo .. hi-1 of x (half-open, as in Python). */
  function Slice(x: nat, lo: nat, hi: nat): (r: nat)
    requires lo <= hi
    ensures r < Pow2(hi - lo)
  {
    (x / Pow2(lo)) % Pow2(hi - lo)
  }

  /** Bit i of x, true for 1. */
  predicate Bit(x: nat, i: nat)
  {
    Slice(x, i, i + 1) == 1
  }
}

=== FILE: i2s.dfy ===
/**
 * An I2S transmitter (Philips I2S bus: word select changes one bit clock
 * before the MSB of the new word, data goes out MSB first).
 *
 * A counter divides the system clock into the bit clock, a bit index walks
 * the sample word, and a look-ahead channel register drives word select one
 * bit ahead of the channel whose data is on the line. Every `sync` tick the
 * registers take the values `Next` gives; the bus lines and `needSample` are
 * functions of the registers. `I2S.Tick` is the register-level model and is
 * proved to agree with `Next`.
 */
module I2STransmitter {
  import opened Bits

  datatype Channel = Left | Right

  function Flip(c: Channel): Channel
  {
    if c == Left then Right else Left
  }

  /** The channel as a 1-bit signal value: Left is 0, Right is 1. */
  predicate IsRight(c: Channel)
  {
    c == Right
  }

  /** The divider (3 bits) and the last bit index of a word (5 bits), set from outside. */
  datatype Config = Config(clkDivider: u3, sampleBits: u5)

  /** The two 24-bit sample registers the producer fills. */
  datatype Samples = Samples(left: u24, right: u24)
  {
    function Word(c: Channel): u24
    {
      if c == Left then left else right
    }
  }

  datatype Phase = Idle | Run

  datatype TxRegs = TxRegs(
    fsm: Phase,
    clkCounter: u3,
    audioClk: bool,
    sampleBit: u5,
    lastBit: u5,
    channelCurrent: Channel,
    channelNext: Channel,
    sampleLatch: bool)   // channelCurrent one tick late, as a bit

  const ResetRegs := TxRegs(Idle, 0, true, 0, 0, Left, Right, false)

  /** What a running transmitter keeps true while the configuration is held fixed. */
  predicate Valid(s: TxRegs, cfg: Config)
  {
    s.fsm == Run ==>
      cfg.clkDivider != 0 && cfg.sampleBits != 0 &&
      s.clkCounter <= cfg.clkDivider &&
      s.sampleBit <= cfg.sampleBits &&
      s.lastBit == cfg.sampleBits - 1
  }

  /** The registers a falling bit-clock edge advances; all others are kept. */
  function FallingEdge(s: TxRegs, cfg: Config): (t: TxRegs)
    ensures t.lastBit == s.lastBit
    // the bit index stays within the word
    ensures s.sampleBit <= cfg.sampleBits && s.lastBit == cfg.sampleBits - 1 ==> t.sampleBit <= cfg.sampleBits
    // the active channel takes the look-ahead, which flips only after the last bit
    ensures t.channelCurrent == s.channelNext
    ensures t.channelNext != s.channelNext ==> s.sampleBit == s.lastBit && s.sampleBit != cfg.sampleBits
  {
    if s.sampleBit == cfg.sampleBits then
      s.(sampleBit := 0, channelCurrent := s.channelNext)
    else
      s.(sampleBit := (s.sampleBit + 1) % 0x20,
         channelNext := if s.sampleBit == s.lastBit then Flip(s.channelNext) else s.channelNext,
         channelCurrent := s.channelNext)
  }

  /** The registers after one `sync` tick. */
  function Next(s: TxRegs, cfg: Config): (t: TxRegs)
    // RUN has no way back to IDLE
    ensures s.fsm == Run ==> t.fsm == Run
    // streaming starts exactly when both divider and width are nonzero
    ensures s.fsm == Idle ==> (t.fsm == Run <==> cfg.sampleBits != 0 && cfg.clkDivider != 0)
    ensures s.fsm == Idle && t.fsm == Run ==>
      t.clkCounter == cfg.clkDivider && t.sampleBit == cfg.sampleBits && t.lastBit == cfg.sampleBits - 1
    // every IDLE tick puts the channel registers back to their initial values
    ensures s.fsm == Idle ==> t.channelCurrent == Left && t.channelNext == Right && !t.sampleLatch
    // the invariant holds from tick to tick under a fixed configuration
    ensures Valid(s, cfg) ==> Valid(t, cfg)
    // in RUN the latch holds the previous tick's channel
    ensures s.fsm == Run ==> t.sampleLatch == IsRight(s.channelCurrent)
    // the bit clock toggles exactly when the counter reaches the divider
    ensures s.fsm == Run ==> (t.audioClk != s.audioClk <==> s.clkCounter == cfg.clkDivider)
    // the channels move only on a falling edge, the look-ahead only after the last bit
    ensures s.fsm == Run && (t.channelCurrent != s.channelCurrent || t.channelNext != s.channelNext) ==>
      s.clkCounter == cfg.clkDivider && s.audioClk
    ensures s.fsm == Run && t.channelNext != s.channelNext ==>
      s.sampleBit == s.lastBit && s.sampleBit != cfg.sampleBits
  {
    match s.fsm
    case Idle =>
      var start := cfg.sampleBits != 0 && cfg.clkDivider != 0;
      var t := s.(channelCurrent := Left, channelNext := Right, sampleLatch := false);
      if start then
        t.(fsm := Run, clkCounter := cfg.clkDivider,
           sampleBit := cfg.sampleBits, lastBit := cfg.sampleBits - 1)
      else t
    case Run =>
      var t := s.(sampleLatch := IsRight(s.channelCurrent));
      if s.clkCounter == cfg.clkDivider then
        var toggled := t.(clkCounter := 0, audioClk := !s.audioClk);
        if s.audioClk then FallingEdge(toggled, cfg) else toggled
      else
        t.(clkCounter := (s.clkCounter + 1) % 0x8)
  }

  /** The one-tick request for a new sample: the active channel just became Left. */
  predicate NeedSample(s: TxRegs)
  {
    s.channelCurrent == Left && s.sampleLatch
  }

  /** The bit of the active word on the data line: `sampleBits - sampleBit`, a 6-bit difference. */
  function DataIndex(s: TxRegs, cfg: Config): (idx: nat)
    ensures idx < 0x40
    ensures s.sampleBit <= cfg.sampleBits ==> idx == cfg.sampleBits - s.sampleBit
  {
    (cfg.sampleBits - s.sampleBit) % 0x40
  }

  datatype BusLines = BusLines(clk: bool, rnl: bool, data: bool)

  /** The three bus lines; an index past bit 23 selects bit 23, as the word array does. */
  function Bus(s: TxRegs, cfg: Config, samples: Samples): (b: BusLines)
    // the bit clock line is the clock register, so HalfPeriod and BitPeriod describe the line itself
    ensures b.clk == s.audioClk
    ensures b.rnl <==> s.channelNext == Right
    ensures s.sampleBit <= cfg.sampleBits < 24 ==>
      (b.data <==> Bit(samples.Word(s.channelCurrent), cfg.sampleBits - s.sampleBit))
  {
    var idx := DataIndex(s, cfg);
    BusLines(s.audioClk, IsRight(s.channelNext),
             Bit(samples.Word(s.channelCurrent), if idx < 24 then idx else 23))
  }

  /** The transmitter's registers as the gateware holds them. */
  class I2S {
    var fsm: Phase
    var clkCounter: u3
    var audioClk: bool
    var sampleBit: u5
    var lastBit: u5
    var channelCurrent: Channel
    var channelNext: Channel
    var sampleLatch: bool

    function Regs(): TxRegs
      reads this
    {
      TxRegs(fsm, clkCounter, audioClk, sampleBit, lastBit, channelCurrent, channelNext, sampleLatch)
    }

    constructor ()
      ensures Regs() == ResetRegs
    {
      fsm, clkCounter, audioClk, sampleBit, lastBit := Idle, 0, true, 0, 0;
      channelCurrent, channelNext, sampleLatch := Left, Right, false;
    }

    /**
     * One `sync` tick. Each register keeps its value unless assigned; a later
     * assignment overrides an earlier one, and all take effect together.
     */
    method Tick(cfg: Config)
      modifies this
      ensures Regs() == Next(old(Regs()), cfg)
    {
      var fsm', clkCounter', audioClk', sampleBit', lastBit' := fsm, clkCounter, audioClk, sampleBit, lastBit;
      var channelCurrent', channelNext' := channelCurrent, channelNext;
      var sampleLatch' := IsRight(channelCurrent);
      match fsm {
        case Idle =>
          sampleLatch', channelCurrent', channelNext' := false, Left, Right;
          if cfg.sampleBits != 0 && cfg.clkDivider != 0 {
            clkCounter', sampleBit', lastBit' := cfg.clkDivider, cfg.sampleBits, cfg.sampleBits - 1;
            fsm' := Run;
          }
        case Run =>
          if clkCounter == cfg.clkDivider {
            clkCounter', audioClk' := 0, !audioClk;
            if audioClk {
              if sampleBit == cfg.sampleBits {
                sampleBit' := 0;
              } else {
                if sampleBit == lastBit {
                  channelNext' := Flip(channelNext);
                }
                sampleBit' := (sampleBit + 1) % 0x20;
              }
              channelCurrent' := channelNext;
            }
          } else {
            clkCounter' := (clkCounter + 1) % 0x8;
          }
      }
      fsm, clkCounter, audioClk, sampleBit, lastBit := fsm', clkCounter', audioClk', sampleBit', lastBit';
      channelCurrent, channelNext, sampleLatch := channelCurrent', channelNext', sampleLatch';
    }
  }

  /** The registers after n ticks under a fixed configuration. */
  function Ticks(s: TxRegs, cfg: Config, n: nat): (t: TxRegs)
    ensures Valid(s, cfg) ==> Valid(t, cfg)
    ensures s.fsm == Run ==> t.fsm == Run
  {
    if n == 0 then s else Next(Ticks(s, cfg, n - 1), cfg)
  }

  /** The registers after n falling edges. */
  function Edges(s: TxRegs, cfg: Config, n: nat): (t: TxRegs)
    ensures t.lastBit == s.lastBit
  {
    if n == 0 then s else FallingEdge(Edges(s, cfg, n - 1), cfg)
  }

  /** The part of the state that the bit clock's falling edges advance. */
  function BitState(s: TxRegs): (u5, u5, Channel, Channel)
  {
    (s.sampleBit, s.lastBit, s.channelCurrent, s.channelNext)
  }

  lemma {:induction false} TicksAdd(s: TxRegs, cfg: Config, a: nat, b: nat)
    ensures Ticks(s, cfg, a + b) == Ticks(Ticks(s, cfg, a), cfg, b)
  {
    if b != 0 {
      TicksAdd(s, cfg, a, b - 1);
    }
  }

  lemma {:induction false} EdgesAdd(s: TxRegs, cfg: Config, a: nat, b: nat)
    ensures Edges(s, cfg, a + b) == Edges(Edges(s, cfg, a), cfg, b)
  {
    if b != 0 {
      EdgesAdd(s, cfg, a, b - 1);
    }
  }

  /** Between toggles the counter climbs by one per tick and nothing else moves. */
  lemma {:induction false} CountUp(s: TxRegs, cfg: Config, k: nat)
    requires s.fsm == Run && Valid(s, cfg) && s.clkCounter + k <= cfg.clkDivider
    ensures var t := Ticks(s, cfg, k);
      t.fsm == Run && t.clkCounter == s.clkCounter + k && t.audioClk == s.audioClk &&
      BitState(t) == BitState(s)
  {
    if k != 0 {
      CountUp(s, cfg, k - 1);
    }
  }

  /**
   * Half a bit-clock period: from a toggle, the clock line holds its level for
   * `clkDivider + 1` ticks and then toggles; the falling toggle advances the bit.
   */
  lemma HalfPeriod(s: TxRegs, cfg: Config)
    requires s.fsm == Run && Valid(s, cfg) && s.clkCounter == 0
    ensures forall k :: 0 <= k <= cfg.clkDivider ==> Ticks(s, cfg, k).audioClk == s.audioClk
    ensures var t := Ticks(s, cfg, cfg.clkDivider + 1);
      t.fsm == Run && Valid(t, cfg) && t.clkCounter == 0 && t.audioClk == !s.audioClk &&
      BitState(t) == if s.audioClk then BitState(FallingEdge(s, cfg)) else BitState(s)
  {
    forall k | 0 <= k <= cfg.clkDivider
      ensures Ticks(s, cfg, k).audioClk == s.audioClk
    {
      CountUp(s, cfg, k);
    }
    CountUp(s, cfg, cfg.clkDivider);
  }

  /** A full bit-clock period of `2 * (clkDivider + 1)` ticks advances exactly one bit. */
  lemma BitPeriod(s: TxRegs, cfg: Config)
    requires s.fsm == Run && Valid(s, cfg) && s.clkCounter == 0
    ensures var t := Ticks(s, cfg, 2 * (cfg.clkDivider + 1));
      t.fsm == Run && Valid(t, cfg) && t.clkCounter == 0 && t.audioClk == s.audioClk &&
      BitState(t) == BitState(FallingEdge(s, cfg))
  {
    var half := cfg.clkDivider + 1;
    HalfPeriod(s, cfg);
    var u := Ticks(s, cfg, half);
    HalfPeriod(u, cfg);
    TicksAdd(s, cfg, half, half);
  }

  lemma MulSucc(n: nat, p: nat)
    requires n != 0
    ensures n * p == (n - 1) * p + p
  {
  }

  /** A falling edge reads and writes only the bit state. */
  lemma FallingEdgeOnBitState(s: TxRegs, s': TxRegs, cfg: Config)
    requires BitState(s) == BitState(s')
    ensures BitState(FallingEdge(s, cfg)) == BitState(FallingEdge(s', cfg))
  {
  }

  /** n bit-clock periods advance the bit state by n falling edges. */
  lemma {:induction false} TicksFollowEdges(s: TxRegs, cfg: Config, n: nat)
    requires s.fsm == Run && Valid(s, cfg) && s.clkCounter == 0
    ensures var t := Ticks(s, cfg, n * (2 * (cfg.clkDivider + 1)));
      t.fsm == Run && Valid(t, cfg) && t.clkCounter == 0 && t.audioClk == s.audioClk &&
      BitState(t) == BitState(Edges(s, cfg, n))
  {
    if n != 0 {
      var period := 2 * (cfg.clkDivider + 1);
      TicksFollowEdges(s, cfg, n - 1);
      MulLeq(0, n - 1, period);
      MulSucc(n, period);
      PeriodFollowsEdge(s, cfg, n - 1, (n - 1) * period, n * period);
    }
  }

  /** One more bit-clock period after `before` ticks adds one more falling edge. */
  lemma PeriodFollowsEdge(s: TxRegs, cfg: Config, m: nat, before: nat, after: nat)
    requires after == before + 2 * (cfg.clkDivider + 1)
    requires var u := Ticks(s, cfg, before);
      u.fsm == Run && Valid(u, cfg) && u.clkCounter == 0 && u.audioClk == s.audioClk &&
      BitState(u) == BitState(Edges(s, cfg, m))
    ensures var t := Ticks(s, cfg, after);
      t.fsm == Run && Valid(t, cfg) && t.clkCounter == 0 && t.audioClk == s.audioClk &&
      BitState(t) == BitState(Edges(s, cfg, m + 1))
  {
    var u := Ticks(s, cfg, before);
    BitPeriod(u, cfg);
    TicksAdd(s, cfg, before, 2 * (cfg.clkDivider + 1));
    FallingEdgeOnBitState(u, Edges(s, cfg, m), cfg);
  }

  /** The start of a word: bit 0 is next on the line and both channel registers agree. */
  predicate WordStart(s: TxRegs, cfg: Config)
  {
    cfg.sampleBits != 0 && s.lastBit == cfg.sampleBits - 1 &&
    s.sampleBit == 0 && s.channelCurrent == s.channelNext
  }

  lemma {:induction false} WithinWord(s: TxRegs, cfg: Config, k: nat)
    requires WordStart(s, cfg) && k < cfg.sampleBits
    ensures var t := Edges(s, cfg, k);
      t.sampleBit == k && t.channelCurrent == s.channelCurrent && t.channelNext == s.channelCurrent
  {
    if k != 0 {
      WithinWord(s, cfg, k - 1);
    }
  }

  /**
   * One word lasts `sampleBits + 1` falling edges: bits 0 .. sampleBits go out
   * on the active channel, word select flips one bit before the word ends,
   * and the next word starts on the other channel.
   */
  lemma Word(s: TxRegs, cfg: Config)
    requires WordStart(s, cfg)
    ensures forall k :: 0 <= k < cfg.sampleBits ==>
      Edges(s, cfg, k).sampleBit == k && Edges(s, cfg, k).channelCurrent == s.channelCurrent &&
      Edges(s, cfg, k).channelNext == s.channelCurrent
    ensures var t := Edges(s, cfg, cfg.sampleBits);
      t.sampleBit == cfg.sampleBits && t.channelCurrent == s.channelCurrent &&
      t.channelNext == Flip(s.channelCurrent)
    ensures var t := Edges(s, cfg, cfg.sampleBits + 1);
      WordStart(t, cfg) && t.channelCurrent == Flip(s.channelCurrent)
  {
    forall k | 0 <= k < cfg.sampleBits
      ensures Edges(s, cfg, k).sampleBit == k && Edges(s, cfg, k).channelCurrent == s.channelCurrent &&
              Edges(s, cfg, k).channelNext == s.channelCurrent
    {
      WithinWord(s, cfg, k);
    }
    WithinWord(s, cfg, cfg.sampleBits - 1);
  }

  /** Words alternate strictly between the channels. */
  lemma {:induction false} Alternation(s: TxRegs, cfg: Config, n: nat)
    requires WordStart(s, cfg)
    ensures var t := Edges(s, cfg, n * (cfg.sampleBits + 1));
      WordStart(t, cfg) &&
      t.channelCurrent == if n % 2 == 0 then s.channelCurrent else Flip(s.channelCurrent)
  {
    if n != 0 {
      var len := cfg.sampleBits + 1;
      Alternation(s, cfg, n - 1);
      MulLeq(0, n - 1, len);
      MulSucc(n, len);
      NextWord(s, cfg, (n - 1) * len, n * len);
      ParityFlips(n);
    }
  }

  lemma ParityFlips(n: nat)
    requires n != 0
    ensures n % 2 == 0 <==> (n - 1) % 2 == 1
  {
  }

  /** After a word that starts `before` edges on, the next word starts on the other channel. */
  lemma NextWord(s: TxRegs, cfg: Config, before: nat, after: nat)
    requires after == before + (cfg.sampleBits + 1) && WordStart(Edges(s, cfg, before), cfg)
    ensures WordStart(Edges(s, cfg, after), cfg)
    ensures Edges(s, cfg, after).channelCurrent == Flip(Edges(s, cfg, before).channelCurrent)
  {
    Word(Edges(s, cfg, before), cfg);
    EdgesAdd(s, cfg, before, cfg.sampleBits + 1);
  }

  /** `needSample` is high exactly on the tick after the active channel went from Right to Left. */
  lemma NeedSampleMarksLeftWord(s: TxRegs, cfg: Config)
    ensures NeedSample(Next(s, cfg)) <==>
      s.fsm == Run && s.channelCurrent == Right && Next(s, cfg).channelCurrent == Left
    ensures NeedSample(Next(s, cfg)) ==> !NeedSample(Next(Next(s, cfg), cfg))
  {
  }

  /**
   * Data goes out MSB first: along a word, bit `sampleBits - k` of the active
   * sample is on the line after k falling edges.
   */
  lemma MsbFirst(s: TxRegs, cfg: Config, samples: Samples, k: nat)
    requires WordStart(s, cfg) && cfg.sampleBits < 24 && k <= cfg.sampleBits
    ensures Bus(Edges(s, cfg, k), cfg, samples).data <==>
      Bit(samples.Word(s.channelCurrent), cfg.sampleBits - k)
  {
    Word(s, cfg);
  }

  /**
   * From reset with both settings nonzero, the second tick starts the first
   * word on the right channel, with the counter at 0 and the clock low.
   */
  lemma StartUp(cfg: Config)
    requires cfg.clkDivider != 0 && cfg.sampleBits != 0
    ensures var t := Ticks(ResetRegs, cfg, 2);
      t.fsm == Run && Valid(t, cfg) && t.clkCounter == 0 && !t.audioClk &&
      WordStart(t, cfg) && t.channelCurrent == Right
  {
    var s1 := Next(ResetRegs, cfg);
    assert Ticks(ResetRegs, cfg, 1) == s1;
    assert Ticks(ResetRegs, cfg, 2) == Next(s1, cfg);
  }

  /**
   * A running word, counted in ticks: `(sampleBits + 1)` bit-clock periods of
   * `2 * (clkDivider + 1)` ticks each take it to the start of the next word,
   * on the other channel.
   */
  lemma WordInTicks(s: TxRegs, cfg: Config)
    requires s.fsm == Run && Valid(s, cfg) && s.clkCounter == 0 && WordStart(s, cfg)
    ensures var t := Ticks(s, cfg, (cfg.sampleBits + 1) * (2 * (cfg.clkDivider + 1)));
      t.fsm == Run && t.clkCounter == 0 && t.audioClk == s.audioClk &&
      WordStart(t, cfg) && t.channelCurrent == Flip(s.channelCurrent)
  {
    TicksFollowEdges(s, cfg, cfg.sampleBits + 1);
    Word(s, cfg);
  }

  lemma {:induction false} MulLeq(a: nat, b: nat, p: nat)
    requires a <= b
    ensures a * p <= b * p
    decreases b - a
  {
    if a < b {
      MulLeq(a, b - 1, p);
      assert b * p == (b - 1) * p + p;
    }
  }

  /** A tick count splits into whole periods and a remainder in one way only. */
  lemma PeriodsUnique(j: nat, m: nat, n: nat, p: nat)
    requires m < p
    ensures j * p + m == n * p <==> j == n && m == 0
  {
    if j < n {
      MulLeq(j + 1, n, p);
      assert (j + 1) * p == j * p + p;
    } else if j > n {
      MulLeq(n, j, p);
      if m == 0 {
        MulLeq(n + 1, j, p);
        assert (n + 1) * p == n * p + p;
      }
    }
  }

  /** After a falling toggle, the bit state holds for the whole bit-clock period that follows. */
  lemma BitStateHeld(s: TxRegs, cfg: Config, m: nat)
    requires s.fsm == Run && Valid(s, cfg) && s.clkCounter == 0 && !s.audioClk
    requires m < 2 * (cfg.clkDivider + 1)
    ensures Ticks(s, cfg, m).fsm == Run && BitState(Ticks(s, cfg, m)) == BitState(s)
  {
    var half := cfg.clkDivider + 1;
    if m <= cfg.clkDivider {
      CountUp(s, cfg, m);
    } else {
      HalfPeriod(s, cfg);
      var u := Ticks(s, cfg, half);
      CountUp(u, cfg, m - half);
      TicksAdd(s, cfg, half, m - half);
    }
  }

  /** The active channel m ticks into bit period j is the one j falling edges give. */
  lemma ChannelAtTick(s: TxRegs, cfg: Config, j: nat, m: nat)
    requires s.fsm == Run && Valid(s, cfg) && s.clkCounter == 0 && !s.audioClk
    requires m < 2 * (cfg.clkDivider + 1)
    ensures Ticks(s, cfg, j * (2 * (cfg.clkDivider + 1)) + m).channelCurrent == Edges(s, cfg, j).channelCurrent
  {
    MulLeq(0, j, 2 * (cfg.clkDivider + 1));
    TicksFollowEdges(s, cfg, j);
    BitStateHeld(Ticks(s, cfg, j * (2 * (cfg.clkDivider + 1))), cfg, m);
    TicksAdd(s, cfg, j * (2 * (cfg.clkDivider + 1)), m);
  }

  /** Over a Right word and the Left word after it, the active channel by falling edge. */
  lemma FrameChannel(s: TxRegs, cfg: Config, j: nat)
    requires WordStart(s, cfg) && s.channelCurrent == Right
    requires j <= 2 * (cfg.sampleBits + 1)
    ensures Edges(s, cfg, j).channelCurrent ==
      if cfg.sampleBits + 1 <= j < 2 * (cfg.sampleBits + 1) then Left else Right
  {
    var len := cfg.sampleBits + 1;
    Word(s, cfg);
    if len <= j < 2 * len {
      var u := Edges(s, cfg, len);
      Word(u, cfg);
      EdgesAdd(s, cfg, len, j - len);
    } else if j == 2 * len {
      Alternation(s, cfg, 2);
    }
  }

  /** Tick `m` of bit period `j`, counted from the start of a Right word. */
  lemma NeedSampleInPeriod(s: TxRegs, cfg: Config, j: nat, m: nat)
    requires s.fsm == Run && Valid(s, cfg) && s.clkCounter == 0 && !s.audioClk
    requires WordStart(s, cfg) && s.channelCurrent == Right
    requires m < 2 * (cfg.clkDivider + 1) && j <= 2 * (cfg.sampleBits + 1)
    ensures NeedSample(Ticks(s, cfg, j * (2 * (cfg.clkDivider + 1)) + m)) <==> j == cfg.sampleBits + 1 && m == 0
  {
    if j == 0 && m == 0 {
      FrameChannelAt(s, cfg, 0, 0);
      assert Ticks(s, cfg, 0) == s;
    } else if m > 0 {
      NeedSampleWithinPeriod(s, cfg, j, m);
    } else {
      NeedSampleAtPeriodStart(s, cfg, j);
    }
  }

  /** The active channel holds through a bit period, so `needSample` stays low after its first tick. */
  lemma NeedSampleWithinPeriod(s: TxRegs, cfg: Config, j: nat, m: nat)
    requires s.fsm == Run && Valid(s, cfg) && s.clkCounter == 0 && !s.audioClk
    requires 0 < m < 2 * (cfg.clkDivider + 1)
    ensures !NeedSample(Ticks(s, cfg, j * (2 * (cfg.clkDivider + 1)) + m))
  {
    var base := j * (2 * (cfg.clkDivider + 1));
    MulLeq(0, j, 2 * (cfg.clkDivider + 1));
    ChannelHeldInPeriod(s, cfg, j, m);
    ChannelKeptNoSample(s, cfg, base + (m - 1), base + m);
  }

  /** Ticks m - 1 and m of bit period j have the same active channel. */
  lemma ChannelHeldInPeriod(s: TxRegs, cfg: Config, j: nat, m: nat)
    requires s.fsm == Run && Valid(s, cfg) && s.clkCounter == 0 && !s.audioClk
    requires 0 < m < 2 * (cfg.clkDivider + 1)
    ensures Ticks(s, cfg, j * (2 * (cfg.clkDivider + 1)) + (m - 1)).channelCurrent ==
      Ticks(s, cfg, j * (2 * (cfg.clkDivider + 1)) + m).channelCurrent
  {
    ChannelAtTick(s, cfg, j, m);
    ChannelAtTick(s, cfg, j, m - 1);
  }

  /** A tick that keeps the active channel raises no `needSample`. */
  lemma ChannelKeptNoSample(s: TxRegs, cfg: Config, before: nat, k: nat)
    requires s.fsm == Run && k == before + 1
    requires Ticks(s, cfg, before).channelCurrent == Ticks(s, cfg, k).channelCurrent
    ensures !NeedSample(Ticks(s, cfg, k))
  {
    NeedSampleStep(s, cfg, before, k);
  }

  lemma NeedSampleAtPeriodStart(s: TxRegs, cfg: Config, j: nat)
    requires s.fsm == Run && Valid(s, cfg) && s.clkCounter == 0 && !s.audioClk
    requires WordStart(s, cfg) && s.channelCurrent == Right
    requires 0 < j <= 2 * (cfg.sampleBits + 1)
    ensures NeedSample(Ticks(s, cfg, j * (2 * (cfg.clkDivider + 1)))) <==> j == cfg.sampleBits + 1
  {
    var period := 2 * (cfg.clkDivider + 1);
    MulLeq(1, j, period);
    MulSucc(j, period);
    FrameChannelAt(s, cfg, j, 0);
    FrameChannelAt(s, cfg, j - 1, period - 1);
    NeedSampleStep(s, cfg, (j - 1) * period + (period - 1), j * period + 0);
  }

  /** `needSample` is high exactly on a tick whose previous tick turned the active channel from Right to Left. */
  lemma NeedSampleStep(s: TxRegs, cfg: Config, before: nat, k: nat)
    requires s.fsm == Run && k == before + 1
    ensures NeedSample(Ticks(s, cfg, k)) <==>
      Ticks(s, cfg, before).channelCurrent == Right && Ticks(s, cfg, k).channelCurrent == Left
  {
    NeedSampleMarksLeftWord(Ticks(s, cfg, before), cfg);
  }

  /** The active channel on tick m of bit period j of a Right word and the Left word after it. */
  lemma FrameChannelAt(s: TxRegs, cfg: Config, j: nat, m: nat)
    requires s.fsm == Run && Valid(s, cfg) && s.clkCounter == 0 && !s.audioClk
    requires WordStart(s, cfg) && s.channelCurrent == Right
    requires m < 2 * (cfg.clkDivider + 1) && j <= 2 * (cfg.sampleBits + 1)
    ensures Ticks(s, cfg, j * (2 * (cfg.clkDivider + 1)) + m).channelCurrent ==
      if cfg.sampleBits + 1 <= j < 2 * (cfg.sampleBits + 1) then Left else Right
  {
    ChannelAtTick(s, cfg, j, m);
    FrameChannel(s, cfg, j);
  }

  /** Splits tick count `k` of a two-word frame into a bit period and a tick within it. */
  lemma SplitTicks(k: nat, period: nat, len: nat) returns (j: nat, m: nat)
    requires 0 < period && k <= 2 * (len * period)
    ensures k == j * period + m && m < period && j <= 2 * len
    ensures k == len * period <==> j == len && m == 0
  {
    j, m := k / period, k % period;
    if j > 2 * len {
      MulLeq(2 * len + 1, j, period);
      assert false;
    }
    PeriodsUnique(j, m, len, period);
  }

  lemma NeedSampleAt(s: TxRegs, cfg: Config, k: nat)
    requires s.fsm == Run && Valid(s, cfg) && s.clkCounter == 0 && !s.audioClk
    requires WordStart(s, cfg) && s.channelCurrent == Right
    requires k <= 2 * ((cfg.sampleBits + 1) * (2 * (cfg.clkDivider + 1)))
    ensures NeedSample(Ticks(s, cfg, k)) <==> k == (cfg.sampleBits + 1) * (2 * (cfg.clkDivider + 1))
  {
    var j, m := SplitTicks(k, 2 * (cfg.clkDivider + 1), cfg.sampleBits + 1);
    NeedSampleInPeriod(s, cfg, j, m);
  }

  /**
   * `needSample` fires once per stereo frame, not once per word: over a Right
   * word and the Left word that follows, it is high on exactly one tick, the
   * first tick of the Left word.
   */
  lemma OneNeedSamplePerFrame(s: TxRegs, cfg: Config)
    requires s.fsm == Run && Valid(s, cfg) && s.clkCounter == 0 && !s.audioClk
    requires WordStart(s, cfg) && s.channelCurrent == Right
    ensures var word := (cfg.sampleBits + 1) * (2 * (cfg.clkDivider + 1));
      forall k :: 0 <= k <= 2 * word ==> (NeedSample(Ticks(s, cfg, k)) <==> k == word)
  {
    var word := (cfg.sampleBits + 1) * (2 * (cfg.clkDivider + 1));
    forall k | 0 <= k <= 2 * word
      ensures NeedSample(Ticks(s, cfg, k)) <==> k == word
    {
      NeedSampleAt(s, cfg, k);
    }
  }
}

=== FILE: request.dfy ===
/**
 * The USB Audio Class 3.0 class-specific control-request handler.
 *
 * It serves `CUR` requests addressed to an interface, over the SETUP / data /
 * status sequence of a USB 2.0 control transfer (section 9.3 of the USB 2.0
 * specification). The only control it knows is the power-domain control,
 * backed by one persisted 8-bit register, `powerState`.
 *
 * The handler is clocked: each `usb` tick reads the registers and the
 * transaction-layer inputs of that tick, drives the combinational handshake
 * outputs, and commits the next register values. `NextRegs` and `Out` state
 * one tick as functions; `AudioRequestHandler.Tick` is the register-level
 * model and is proved to agree with them.
 */
module AudioRequest {
  import opened Bits

  /** The `type` field of bmRequestType. */
  datatype RequestType = Standard | Class | Vendor | ReservedType

  /** The `recipient` field of bmRequestType; codes 4 to 31 are reserved. */
  datatype Recipient = Device | Interface | Endpoint | Other | ReservedRecipient

  /** The SETUP packet as the transaction layer latches it for one transfer. */
  datatype SetupPacket = SetupPacket(
    requestType: RequestType,
    recipient: Recipient,
    isIn: bool,          // data stage runs device-to-host (a GET)
    request: u8,
    value: u16,
    index: u16,
    length: u16)

  /** Request code `CUR` of the USB Audio Class 3.0. */
  const CUR: u8 := 0x01
  /** AudioControl interface control selector `AC_POWER_DOMAIN_CONTROL`. */
  const AC_POWER_DOMAIN_CONTROL: nat := 0x02
  /** Entity ID of the power domain the handler serves, the high byte of wIndex (on interface 0). */
  const POWER_DOMAIN_ENTITY: nat := 11

  datatype HandlerState = Idle | HandleCurrent | Unhandled

  /** The handler's registers: FSM state, receive-armed flag, persisted setting. */
  datatype HandlerRegs = HandlerRegs(state: HandlerState, rxTriggered: bool, powerState: u8)

  const ResetRegs := HandlerRegs(Idle, false, 0)

  /** What the handler samples in one tick. */
  datatype TickInputs = TickInputs(
    setup: SetupPacket,
    setupReceived: bool,        // a new SETUP packet arrived
    dataRequested: bool,        // IN data stage: the host asks for data
    statusRequested: bool,      // the status stage began
    rxReadyForResponse: bool,   // OUT data complete, host waits for a handshake
    ackReceived: bool,          // the host ACKed our last packet
    rxDone: bool,               // the receive adapter finished
    rxData: u16)                // the receive adapter's payload, first byte lowest

  /** What the handler drives in one tick; undriven lines read 0. */
  datatype Handshakes = Handshakes(
    ack: bool,
    stall: bool,
    zlp: bool,                  // send a zero-length status packet
    txStart: bool,
    rxStart: bool,
    txData: u16,
    txMaxLength: nat,
    rxMaxLength: nat)

  const Quiet := Handshakes(false, false, false, false, false, 0, 0, 0)

  /** The handler reacts only to class requests addressed to an interface. */
  predicate HandlerCondition(setup: SetupPacket)
  {
    setup.requestType == Class && setup.recipient == Interface
  }

  /**
   * The selector test: bits 0-6 and 8-14 of index and value are compared,
   * bits 7 and 15 are not.
   */
  predicate AddressesPowerDomain(setup: SetupPacket)
  {
    Slice(setup.index, 0, 7) == 0 && Slice(setup.index, 8, 15) == POWER_DOMAIN_ENTITY &&
    Slice(setup.value, 0, 7) == 0 && Slice(setup.value, 8, 15) == AC_POWER_DOMAIN_CONTROL
  }

  /** The 16-bit words whose low seven bits are 0 and whose bits 8-14 are `high`. */
  function FieldMatches(high: nat): set<nat>
  {
    {high * 0x100, high * 0x100 + 0x80, (high + 0x80) * 0x100, (high + 0x80) * 0x100 + 0x80}
  }

  lemma SevenBitFields(x: u16, high: nat)
    requires high < 0x80
    ensures (Slice(x, 0, 7) == 0 && Slice(x, 8, 15) == high) <==> x in FieldMatches(high)
  {
    assert Pow2(7) == 0x80 && Pow2(8) == 0x100 by {
      assert Pow2(0) == 1;
    }
    assert Slice(x, 0, 7) == x % 0x80;
    assert Slice(x, 8, 15) == (x / 0x100) % 0x80;
    var q, r := x / 0x100, x % 0x100;
    assert x == q * 0x100 + r;
    assert x % 0x80 == r % 0x80;
  }

  /** Reference characterisation of the selector test by the concrete words it accepts. */
  lemma PowerDomainWords(setup: SetupPacket)
    ensures AddressesPowerDomain(setup) <==>
      setup.index in FieldMatches(POWER_DOMAIN_ENTITY) &&
      setup.value in FieldMatches(AC_POWER_DOMAIN_CONTROL)
  {
    SevenBitFields(setup.index, POWER_DOMAIN_ENTITY);
    SevenBitFields(setup.value, AC_POWER_DOMAIN_CONTROL);
  }

  /** What setting bit 7 and bit 15 adds to a word in which both are clear. */
  function Bits7And15(bit7: bool, bit15: bool): nat
  {
    (if bit7 then 0x80 else 0) + (if bit15 then 0x8000 else 0)
  }

  /**
   * Bits 7 and 15 of index and value do not take part in the selector test:
   * setting any of them in a word where they are clear leaves the result alone.
   */
  lemma SelectorIgnoresBits7And15(setup: SetupPacket, index7: bool, index15: bool, value7: bool, value15: bool)
    requires setup.index % 0x100 < 0x80 && setup.index < 0x8000
    requires setup.value % 0x100 < 0x80 && setup.value < 0x8000
    ensures var marked := setup.(index := setup.index + Bits7And15(index7, index15),
                                 value := setup.value + Bits7And15(value7, value15));
      AddressesPowerDomain(marked) == AddressesPowerDomain(setup)
  {
    assert Pow2(7) == 0x80 && Pow2(8) == 0x100 by {
      assert Pow2(0) == 1;
    }
    SevenBitFieldsKept(setup.index, index7, index15);
    SevenBitFieldsKept(setup.value, value7, value15);
  }

  lemma SevenBitFieldsKept(x: nat, bit7: bool, bit15: bool)
    requires x % 0x100 < 0x80 && x < 0x8000
    ensures (x + Bits7And15(bit7, bit15)) % 0x80 == x % 0x80
    ensures ((x + Bits7And15(bit7, bit15)) / 0x100) % 0x80 == (x / 0x100) % 0x80
  {
    var q, r := x / 0x100, x % 0x100;
    var c7, c15 := if bit7 then 1 else 0, if bit15 then 1 else 0;
    var y := x + Bits7And15(bit7, bit15);
    var q', r' := q + c15 * 0x80, r + c7 * 0x80;
    QuotientByte(y, q', r');
    LowSevenBits(x, 2 * q, r);
    LowSevenBits(y, 2 * q', r');
    LowSevenBits(r', c7, r);
    LowSevenBits(q', c15, q);
  }

  /** Division by 0x100 has one quotient and remainder. */
  lemma QuotientByte(y: int, q: int, r: int)
    requires 0 <= r < 0x100 && y == q * 0x100 + r
    ensures y / 0x100 == q && y % 0x100 == r
  {
  }

  /** Adding multiples of 0x80 leaves the low seven bits alone. */
  lemma LowSevenBits(y: int, q: int, r: int)
    requires y == q * 0x80 + r
    ensures y % 0x80 == r % 0x80
  {
    var t := r / 0x80;
    assert r == t * 0x80 + r % 0x80;
    assert y == (q + t) * 0x80 + r % 0x80;
  }

  /** Length of the addressed control: 1 byte for the power domain, 0 otherwise. */
  function LengthForCurrent(setup: SetupPacket): (length: nat)
    ensures length <= 1
    ensures length == 1 <==>
      setup.index in FieldMatches(POWER_DOMAIN_ENTITY) &&
      setup.value in FieldMatches(AC_POWER_DOMAIN_CONTROL)
  {
    PowerDomainWords(setup);
    if AddressesPowerDomain(setup) then 1 else 0
  }

  /** The value a GET reports and its length. */
  function SettingForCurrent(setup: SetupPacket, powerState: u8): (result: (u8, nat))
    ensures result.1 == LengthForCurrent(setup)
    ensures result.0 != 0 ==> result.1 == 1
    ensures result.1 == 1 ==> result.0 == powerState
  {
    (if AddressesPowerDomain(setup) then powerState else 0, LengthForCurrent(setup))
  }

  /** The power state after a SET commits a received payload. */
  function SettingFromCurrent(setup: SetupPacket, payload: u16, powerState: u8): (p: u8)
    ensures LengthForCurrent(setup) == 1 ==> p == payload % 0x100
    ensures LengthForCurrent(setup) != 1 ==> p == powerState
  {
    // powerState is 8 bits wide: the assignment keeps the low byte of the payload
    if AddressesPowerDomain(setup) then payload % 0x100 else powerState
  }

  /** The registers after one tick. */
  function NextRegs(r: HandlerRegs, i: TickInputs): (r': HandlerRegs)
    // an ineligible request leaves every register alone
    ensures !HandlerCondition(i.setup) ==> r' == r
    // the setting changes only when an armed SET of the power domain completes
    ensures r'.powerState != r.powerState ==>
      HandlerCondition(i.setup) && r.state == HandleCurrent && !i.setup.isIn &&
      r.rxTriggered && i.rxDone && LengthForCurrent(i.setup) == 1 &&
      r'.powerState == i.rxData % 0x100
    // the receiver is armed only after the declared length matched
    ensures r'.rxTriggered && !r.rxTriggered ==>
      r.state == HandleCurrent && !i.setup.isIn && i.setup.length == LengthForCurrent(i.setup)
    // every eligible IDLE tick disarms the receiver, so each transfer starts disarmed
    ensures r.state == Idle && HandlerCondition(i.setup) ==> !r'.rxTriggered
    // once armed, the receiver stays armed until the handler is back in IDLE
    ensures r.state != Idle && r.rxTriggered ==> r'.rxTriggered
    // an unknown request is never served
    ensures r.state == Unhandled ==> r'.state != HandleCurrent
  {
    if !HandlerCondition(i.setup) then r
    else
      match r.state
      case Idle =>
        var next := if !i.setupReceived then Idle
                    else if i.setup.request == CUR then HandleCurrent
                    else Unhandled;
        HandlerRegs(next, false, r.powerState)
      case HandleCurrent =>
        var length := LengthForCurrent(i.setup);
        if i.setup.isIn then
          var stalled := i.dataRequested && i.setup.length != length;
          r.(state := if stalled || i.statusRequested then Idle else HandleCurrent)
        else
          var stalled := !r.rxTriggered && i.setup.length != length;
          var committed := r.rxTriggered && i.rxDone;
          HandlerRegs(
            if stalled || i.ackReceived then Idle else HandleCurrent,
            r.rxTriggered || i.setup.length == length,
            if committed then SettingFromCurrent(i.setup, i.rxData, r.powerState) else r.powerState)
      case Unhandled =>
        r.(state := if i.dataRequested || i.statusRequested then Idle else Unhandled)
  }

  /** The handshake outputs of one tick. */
  function Out(r: HandlerRegs, i: TickInputs): (h: Handshakes)
    // nothing is driven for an ineligible request or between transfers
    ensures !HandlerCondition(i.setup) || r.state == Idle ==> h == Quiet
    // every stall ends the transfer, and a stall never arms an adapter
    ensures h.stall ==> NextRegs(r, i).state == Idle && !h.txStart && !h.rxStart
    // the transmitter is started only for a GET whose declared length matches
    ensures h.txStart ==>
      r.state == HandleCurrent && i.setup.isIn && i.dataRequested &&
      i.setup.length == h.txMaxLength == LengthForCurrent(i.setup)
    // only the power domain reports a nonzero value, and it reports powerState
    ensures h.txData != 0 ==> LengthForCurrent(i.setup) == 1 && h.txData == r.powerState
    ensures h.txStart && LengthForCurrent(i.setup) == 1 ==> h.txData == r.powerState
    // the receiver is started at most once per transfer, after a length match
    ensures h.rxStart ==>
      r.state == HandleCurrent && !i.setup.isIn && !r.rxTriggered &&
      i.setup.length == h.rxMaxLength && NextRegs(r, i).rxTriggered
    // a zero-length status packet is sent only in the status stage of a SET
    ensures h.zlp ==> r.state == HandleCurrent && !i.setup.isIn && i.statusRequested
  {
    if !HandlerCondition(i.setup) then Quiet
    else
      match r.state
      case Idle => Quiet
      case HandleCurrent =>
        if i.setup.isIn then
          var setting := SettingForCurrent(i.setup, r.powerState);
          var matched := i.setup.length == setting.1;
          Quiet.(ack := i.statusRequested,
                 stall := i.dataRequested && !matched,
                 txStart := i.dataRequested && matched,
                 txData := setting.0,
                 txMaxLength := setting.1)
        else
          var length := LengthForCurrent(i.setup);
          var matched := i.setup.length == length;
          Quiet.(ack := i.rxReadyForResponse,
                 stall := !r.rxTriggered && !matched,
                 zlp := i.statusRequested,
                 rxStart := !r.rxTriggered && matched,
                 rxMaxLength := length)
      case Unhandled =>
        Quiet.(stall := i.dataRequested || i.statusRequested)
  }

  /** The handler as the gateware holds it: three registers updated once per tick. */
  class AudioRequestHandler {
    var state: HandlerState
    var rxTriggered: bool
    var powerState: u8

    function Regs(): HandlerRegs
      reads this
    {
      HandlerRegs(state, rxTriggered, powerState)
    }

    constructor ()
      ensures Regs() == ResetRegs
    {
      state, rxTriggered, powerState := Idle, false, 0;
    }

    /**
     * One `usb` tick. Combinational outputs start undriven and registers keep
     * their value; inside the tick a later assignment overrides an earlier one,
     * and the registers take their next values together at the end.
     */
    method Tick(i: TickInputs) returns (h: Handshakes)
      modifies this
      ensures h == Out(old(Regs()), i)
      ensures Regs() == NextRegs(old(Regs()), i)
    {
      var ack, stall, zlp, txStart, rxStart := false, false, false, false, false;
      var txData: u16, txMaxLength: nat, rxMaxLength: nat := 0, 0, 0;
      var state', rxTriggered', powerState' := state, rxTriggered, powerState;
      var setup := i.setup;
      if HandlerCondition(setup) {
        match state {
          case Idle =>
            if i.setupReceived {
              if setup.request == CUR {
                state' := HandleCurrent;
              } else {
                state' := Unhandled;
              }
            }
            rxTriggered' := false;
          case HandleCurrent =>
            if setup.isIn {
              var setting := SettingForCurrent(setup, powerState);
              txData, txMaxLength := setting.0, setting.1;
              if i.dataRequested {
                if setup.length == setting.1 {
                  txStart := true;
                } else {
                  stall := true;
                  state' := Idle;
                }
              }
              if i.statusRequested {
                ack := true;
                state' := Idle;
              }
            } else {
              var length := LengthForCurrent(setup);
              rxMaxLength := length;
              if !rxTriggered {
                if setup.length == length {
                  rxStart := true;
                  rxTriggered' := true;
                } else {
                  stall := true;
                  state' := Idle;
                }
              } else if i.rxDone {
                powerState' := SettingFromCurrent(setup, i.rxData, powerState);
              }
              if i.rxReadyForResponse {
                ack := true;
              }
              if i.statusRequested {
                zlp := true;
              }
              if i.ackReceived {
                state' := Idle;
              }
            }
          case Unhandled =>
            if i.dataRequested || i.statusRequested {
              stall := true;
              state' := Idle;
            }
        }
      }
      h := Handshakes(ack, stall, zlp, txStart, rxStart, txData, txMaxLength, rxMaxLength);
      state, rxTriggered, powerState := state', rxTriggered', powerState';
    }
  }

  /** The registers after a sequence of ticks. */
  function RunTicks(r: HandlerRegs, ins: seq<TickInputs>): HandlerRegs
    decreases |ins|
  {
    if ins == [] then r else RunTicks(NextRegs(r, ins[0]), ins[1..])
  }

  /** The outputs of tick k of a sequence. */
  function OutAt(r: HandlerRegs, ins: seq<TickInputs>, k: nat): Handshakes
    requires k < |ins|
  {
    Out(RunTicks(r, ins[..k]), ins[k])
  }

  lemma {:induction false} RunTicksAppend(r: HandlerRegs, ins: seq<TickInputs>, i: TickInputs)
    ensures RunTicks(r, ins + [i]) == NextRegs(RunTicks(r, ins), i)
    decreases |ins|
  {
    if ins == [] {
      assert [i][1..] == [];
    } else {
      assert (ins + [i])[1..] == ins[1..] + [i];
      RunTicksAppend(NextRegs(r, ins[0]), ins[1..], i);
    }
  }

  /** A tick that carries `setup` and no transaction-layer pulse. */
  function NoPulse(setup: SetupPacket): TickInputs
  {
    TickInputs(setup, false, false, false, false, false, false, 0)
  }

  /** True when the register state lets no SET commit for `setup` before a new transfer. */
  predicate Disarmed(r: HandlerRegs)
  {
    r.state == Idle || !r.rxTriggered
  }

  /**
   * For a transfer whose SETUP is fixed, the power state survives every
   * sequence of ticks unless the request addresses the power domain with the
   * matching length: a foreign selector discards what it receives, and a length
   * mismatch stalls before the receiver is ever armed.
   */
  lemma {:induction false} PowerStateKeptUnlessMatched(r: HandlerRegs, setup: SetupPacket, ins: seq<TickInputs>)
    requires forall k :: 0 <= k < |ins| ==> ins[k].setup == setup
    requires LengthForCurrent(setup) != 1 || (setup.length != 1 && Disarmed(r))
    ensures RunTicks(r, ins).powerState == r.powerState
    decreases |ins|
  {
    if ins != [] {
      var r' := NextRegs(r, ins[0]);
      assert r'.powerState == r.powerState;
      assert LengthForCurrent(setup) == 1 ==> Disarmed(r');
      PowerStateKeptUnlessMatched(r', setup, ins[1..]);
    }
  }

  /** A tick that carries `setup` and no transaction-layer pulse; the receive data lines may hold anything. */
  predicate Pulseless(i: TickInputs, setup: SetupPacket)
  {
    i.setup == setup && !i.setupReceived && !i.dataRequested && !i.statusRequested &&
    !i.rxReadyForResponse && !i.ackReceived && !i.rxDone
  }

  /** Waits between the stages of a transfer: runs of pulse-free ticks. */
  predicate QuietGaps(gaps: seq<seq<TickInputs>>, setup: SetupPacket)
  {
    forall k, m :: 0 <= k < |gaps| && 0 <= m < |gaps[k]| ==> Pulseless(gaps[k][m], setup)
  }

  /** A tick that drives no handshake and starts no adapter. */
  predicate Silent(h: Handshakes)
  {
    !h.ack && !h.stall && !h.zlp && !h.txStart && !h.rxStart
  }

  /**
   * The handler waits for the host: a GET or an armed SET in HANDLE_CURRENT,
   * or an unknown request in UNHANDLED. Nothing moves until the next pulse.
   */
  predicate Waiting(r: HandlerRegs, setup: SetupPacket)
  {
    HandlerCondition(setup) &&
    (r.state == Unhandled || (r.state == HandleCurrent && (setup.isIn || r.rxTriggered)))
  }

  /** While the handler waits, pulse-free ticks change no register and drive nothing. */
  lemma {:induction false} QuietTicksHold(r: HandlerRegs, setup: SetupPacket, gap: seq<TickInputs>)
    requires Waiting(r, setup)
    requires forall m :: 0 <= m < |gap| ==> Pulseless(gap[m], setup)
    ensures RunTicks(r, gap) == r
    ensures forall k :: 0 <= k < |gap| ==> Silent(OutAt(r, gap, k))
    decreases |gap|
  {
    if gap != [] {
      assert NextRegs(r, gap[0]) == r;
      QuietTicksHold(r, setup, gap[1..]);
      forall k | 0 <= k < |gap|
        ensures Silent(OutAt(r, gap, k))
      {
        if k > 0 {
          assert gap == [gap[0]] + gap[1..];
          OutAtConcat(r, [gap[0]], gap[1..], k - 1);
        }
      }
    }
  }

  lemma {:induction false} RunTicksConcat(r: HandlerRegs, a: seq<TickInputs>, b: seq<TickInputs>)
    ensures RunTicks(r, a + b) == RunTicks(RunTicks(r, a), b)
    decreases |a|
  {
    if a == [] {
      assert a + b == b;
    } else {
      assert (a + b)[1..] == a[1..] + b;
      RunTicksConcat(NextRegs(r, a[0]), a[1..], b);
    }
  }

  lemma OutAtConcat(r: HandlerRegs, a: seq<TickInputs>, b: seq<TickInputs>, k: nat)
    requires k < |b|
    ensures OutAt(r, a + b, |a| + k) == OutAt(RunTicks(r, a), b, k)
  {
    assert (a + b)[..|a| + k] == a + b[..k];
    RunTicksConcat(r, a, b[..k]);
  }

  lemma OutAtPrefix(r: HandlerRegs, a: seq<TickInputs>, b: seq<TickInputs>, k: nat)
    requires k < |a|
    ensures OutAt(r, a + b, k) == OutAt(r, a, k)
  {
    assert (a + b)[..k] == a[..k];
  }

  /**
   * A transfer as the host paces it: the stage ticks, with a wait of any
   * length after every stage but the last.
   */
  function Paced(stages: seq<TickInputs>, gaps: seq<seq<TickInputs>>): (ins: seq<TickInputs>)
    requires |stages| == |gaps| + 1
    ensures forall j :: 0 <= j < |stages| ==> StagePos(gaps, j) < |ins| && ins[StagePos(gaps, j)] == stages[j]
    decreases |gaps|
  {
    if gaps == [] then stages
    else
      var rest := Paced(stages[1..], gaps[1..]);
      assert forall j :: 0 < j < |stages| ==> StagePos(gaps, j) == 1 + |gaps[0]| + StagePos(gaps[1..], j - 1);
      [stages[0]] + gaps[0] + rest
  }

  /** Where stage j falls in a paced transfer. */
  function StagePos(gaps: seq<seq<TickInputs>>, j: nat): nat
    requires j <= |gaps|
    decreases j
  {
    if j == 0 then 0 else 1 + |gaps[0]| + StagePos(gaps[1..], j - 1)
  }

  /**
   * Waiting between stages changes nothing: a paced transfer ends in the
   * registers of its stages run back to back, each stage tick drives what it
   * would back to back, and every waiting tick drives nothing. A wait may
   * follow a stage only where the handler is then `Waiting`.
   */
  lemma PacingIrrelevant(r: HandlerRegs, setup: SetupPacket, stages: seq<TickInputs>, gaps: seq<seq<TickInputs>>)
    requires |stages| == |gaps| + 1 && QuietGaps(gaps, setup)
    requires forall k :: 0 <= k < |gaps| && gaps[k] != [] ==> Waiting(RunTicks(r, stages[..k + 1]), setup)
    ensures RunTicks(r, Paced(stages, gaps)) == RunTicks(r, stages)
    ensures forall j :: 0 <= j < |stages| ==> OutAt(r, Paced(stages, gaps), StagePos(gaps, j)) == OutAt(r, stages, j)
    ensures forall k :: 0 <= k < |Paced(stages, gaps)| && !AtStage(gaps, k) ==> Silent(OutAt(r, Paced(stages, gaps), k))
  {
    PacedRegs(r, setup, stages, gaps);
    PacedStages(r, setup, stages, gaps);
    PacedWaits(r, setup, stages, gaps);
  }

  lemma {:induction false} PacedRegs(r: HandlerRegs, setup: SetupPacket, stages: seq<TickInputs>, gaps: seq<seq<TickInputs>>)
    requires |stages| == |gaps| + 1 && QuietGaps(gaps, setup)
    requires forall k :: 0 <= k < |gaps| && gaps[k] != [] ==> Waiting(RunTicks(r, stages[..k + 1]), setup)
    ensures RunTicks(r, Paced(stages, gaps)) == RunTicks(r, stages)
    decreases |gaps|
  {
    if gaps != [] {
      var s0, g0, rest, restGaps := stages[0], gaps[0], stages[1..], gaps[1..];
      PacedRest(r, setup, stages, gaps);
      PacedRegs(NextRegs(r, s0), setup, rest, restGaps);
      WaitSkipped(r, setup, s0, g0, Paced(rest, restGaps));
      RunTicksConcat(r, [s0] + g0, Paced(rest, restGaps));
      RunTicksConcat(r, [s0], rest);
    }
  }

  lemma {:induction false} PacedStages(r: HandlerRegs, setup: SetupPacket, stages: seq<TickInputs>, gaps: seq<seq<TickInputs>>)
    requires |stages| == |gaps| + 1 && QuietGaps(gaps, setup)
    requires forall k :: 0 <= k < |gaps| && gaps[k] != [] ==> Waiting(RunTicks(r, stages[..k + 1]), setup)
    ensures forall j :: 0 <= j < |stages| ==> OutAt(r, Paced(stages, gaps), StagePos(gaps, j)) == OutAt(r, stages, j)
    decreases |gaps|
  {
    if gaps == [] {
      assert Paced(stages, gaps) == stages;
    } else {
      var s0, g0, rest, restGaps := stages[0], gaps[0], stages[1..], gaps[1..];
      var r1, tail := NextRegs(r, s0), Paced(rest, restGaps);
      PacedRest(r, setup, stages, gaps);
      PacedStages(r1, setup, rest, restGaps);
      forall j | 0 <= j < |stages|
        ensures OutAt(r, Paced(stages, gaps), StagePos(gaps, j)) == OutAt(r, stages, j)
      {
        if j == 0 {
          assert stages[..0] == [];
        } else {
          StageAfterFirst(r, stages, j);
          LaterStage(r, setup, stages, gaps, j);
        }
      }
    }
  }

  /** Stage j > 0 of a paced transfer is stage j - 1 of the transfer that follows the first stage and its wait. */
  lemma LaterStage(r: HandlerRegs, setup: SetupPacket, stages: seq<TickInputs>, gaps: seq<seq<TickInputs>>, j: nat)
    requires |stages| == |gaps| + 1 && 0 < j < |stages|
    requires Paced(stages, gaps) == ([stages[0]] + gaps[0]) + Paced(stages[1..], gaps[1..])
    requires forall m :: 0 <= m < |gaps[0]| ==> Pulseless(gaps[0][m], setup)
    requires gaps[0] != [] ==> Waiting(NextRegs(r, stages[0]), setup)
    ensures OutAt(r, Paced(stages, gaps), StagePos(gaps, j)) ==
      OutAt(NextRegs(r, stages[0]), Paced(stages[1..], gaps[1..]), StagePos(gaps[1..], j - 1))
  {
    WaitRegs(r, setup, stages[0], gaps[0]);
    OutAfter(r, [stages[0]] + gaps[0], Paced(stages[1..], gaps[1..]), StagePos(gaps, j), StagePos(gaps[1..], j - 1));
  }

  /** Tick p of `head + tail` is tick p - |head| of `tail`, run from where `head` left the registers. */
  lemma OutAfter(r: HandlerRegs, head: seq<TickInputs>, tail: seq<TickInputs>, p: nat, m: nat)
    requires m < |tail| && p == |head| + m
    ensures OutAt(r, head + tail, p) == OutAt(RunTicks(r, head), tail, m)
  {
    OutAtConcat(r, head, tail, m);
  }

  lemma StageAfterFirst(r: HandlerRegs, stages: seq<TickInputs>, j: nat)
    requires 0 < j < |stages|
    ensures OutAt(r, stages, j) == OutAt(NextRegs(r, stages[0]), stages[1..], j - 1)
  {
    assert stages == [stages[0]] + stages[1..];
    OutAtConcat(r, [stages[0]], stages[1..], j - 1);
    assert RunTicks(r, [stages[0]]) == NextRegs(r, stages[0]) by { assert [stages[0]][1..] == []; }
  }

  lemma PacedWaits(r: HandlerRegs, setup: SetupPacket, stages: seq<TickInputs>, gaps: seq<seq<TickInputs>>)
    requires |stages| == |gaps| + 1 && QuietGaps(gaps, setup)
    requires forall k :: 0 <= k < |gaps| && gaps[k] != [] ==> Waiting(RunTicks(r, stages[..k + 1]), setup)
    ensures forall k :: 0 <= k < |Paced(stages, gaps)| && !AtStage(gaps, k) ==> Silent(OutAt(r, Paced(stages, gaps), k))
  {
    forall k | 0 <= k < |Paced(stages, gaps)| && !AtStage(gaps, k)
      ensures Silent(OutAt(r, Paced(stages, gaps), k))
    {
      PacedWaitAt(r, setup, stages, gaps, k);
    }
  }

  lemma {:induction false} PacedWaitAt(r: HandlerRegs, setup: SetupPacket, stages: seq<TickInputs>,
                                       gaps: seq<seq<TickInputs>>, k: nat)
    requires |stages| == |gaps| + 1 && QuietGaps(gaps, setup)
    requires forall k :: 0 <= k < |gaps| && gaps[k] != [] ==> Waiting(RunTicks(r, stages[..k + 1]), setup)
    requires k < |Paced(stages, gaps)| && !AtStage(gaps, k)
    ensures Silent(OutAt(r, Paced(stages, gaps), k))
    decreases |gaps|
  {
    assert gaps != [];
    if k <= |gaps[0]| {
      FirstWaitSilent(r, setup, stages, gaps, k);
    } else {
      var s0, g0, rest, restGaps := stages[0], gaps[0], stages[1..], gaps[1..];
      PacedRest(r, setup, stages, gaps);
      PacedWaitAt(NextRegs(r, s0), setup, rest, restGaps, k - 1 - |g0|);
      WaitRegs(r, setup, s0, g0);
      OutAfter(r, [s0] + g0, Paced(rest, restGaps), k, k - 1 - |g0|);
    }
  }

  lemma FirstWaitSilent(r: HandlerRegs, setup: SetupPacket, stages: seq<TickInputs>, gaps: seq<seq<TickInputs>>, k: nat)
    requires |stages| == |gaps| + 1 && gaps != [] && QuietGaps(gaps, setup)
    requires gaps[0] != [] ==> Waiting(RunTicks(r, stages[..1]), setup)
    requires 0 < k <= |gaps[0]|
    ensures Silent(OutAt(r, Paced(stages, gaps), k))
  {
    var s0, g0 := stages[0], gaps[0];
    assert Paced(stages, gaps) == ([s0] + g0) + Paced(stages[1..], gaps[1..]);
    assert stages[..1] == [s0];
    assert RunTicks(r, [s0]) == NextRegs(r, s0) by { assert [s0][1..] == []; }
    assert forall m :: 0 <= m < |g0| ==> Pulseless(g0[m], setup);
    WaitSilent(r, setup, s0, g0, Paced(stages[1..], gaps[1..]));
  }

  /** Putting an empty wait in front keeps the waits pulse-free. */
  lemma NoFirstGapQuiet(setup: SetupPacket, gaps: seq<seq<TickInputs>>)
    requires QuietGaps(gaps, setup)
    ensures QuietGaps([[]] + gaps, setup)
  {
    var gs: seq<seq<TickInputs>> := [[]] + gaps;
    forall k, m | 0 <= k < |gs| && 0 <= m < |gs[k]|
      ensures Pulseless(gs[k][m], setup)
    {
      assert gs[k] == gaps[k - 1];
    }
  }

  /** Every tick of a paced transfer carries the setup packet its stages and waits carry. */
  lemma {:induction false} PacedKeepsSetup(setup: SetupPacket, stages: seq<TickInputs>, gaps: seq<seq<TickInputs>>)
    requires |stages| == |gaps| + 1 && QuietGaps(gaps, setup)
    requires forall k :: 0 <= k < |stages| ==> stages[k].setup == setup
    ensures forall k :: 0 <= k < |Paced(stages, gaps)| ==> Paced(stages, gaps)[k].setup == setup
    decreases |gaps|
  {
    if gaps == [] {
      assert Paced(stages, gaps) == stages;
    } else {
      var head: seq<TickInputs>, tail := [stages[0]] + gaps[0], Paced(stages[1..], gaps[1..]);
      RestGapsQuiet(setup, gaps);
      PacedKeepsSetup(setup, stages[1..], gaps[1..]);
      assert Paced(stages, gaps) == head + tail;
      forall k | 0 <= k < |head + tail|
        ensures (head + tail)[k].setup == setup
      {
        if 0 < k < |head| {
          assert head[k] == gaps[0][k - 1];
        } else if |head| <= k {
          assert (head + tail)[k] == tail[k - |head|];
        }
      }
    }
  }

  /** Tick k of a paced transfer is one of its stage ticks. */
  predicate AtStage(gaps: seq<seq<TickInputs>>, k: nat)
    decreases |gaps|
  {
    k == 0 || (gaps != [] && k > |gaps[0]| && AtStage(gaps[1..], k - 1 - |gaps[0]|))
  }

  /** Which stage a stage tick is. */
  lemma {:induction false} StageIndex(gaps: seq<seq<TickInputs>>, k: nat) returns (j: nat)
    requires AtStage(gaps, k)
    ensures j <= |gaps| && StagePos(gaps, j) == k
    decreases |gaps|
  {
    if k == 0 {
      j := 0;
    } else {
      var j' := StageIndex(gaps[1..], k - 1 - |gaps[0]|);
      j := j' + 1;
    }
  }

  /** One step of `PacingIrrelevant`: the rest of a paced transfer meets its requirements. */
  lemma PacedRest(r: HandlerRegs, setup: SetupPacket, stages: seq<TickInputs>, gaps: seq<seq<TickInputs>>)
    requires |stages| == |gaps| + 1 && gaps != [] && QuietGaps(gaps, setup)
    requires forall k :: 0 <= k < |gaps| && gaps[k] != [] ==> Waiting(RunTicks(r, stages[..k + 1]), setup)
    ensures Paced(stages, gaps) == ([stages[0]] + gaps[0]) + Paced(stages[1..], gaps[1..])
    ensures QuietGaps(gaps[1..], setup)
    ensures forall m :: 0 <= m < |gaps[0]| ==> Pulseless(gaps[0][m], setup)
    ensures gaps[0] != [] ==> Waiting(NextRegs(r, stages[0]), setup)
    ensures forall k :: 0 <= k < |gaps| - 1 && gaps[1..][k] != [] ==>
      Waiting(RunTicks(NextRegs(r, stages[0]), stages[1..][..k + 1]), setup)
  {
    RestGapsQuiet(setup, gaps);
    RestWaiting(r, setup, stages, gaps);
    assert stages[..1] == [stages[0]];
    assert RunTicks(r, [stages[0]]) == NextRegs(r, stages[0]) by { assert [stages[0]][1..] == []; }
  }

  lemma RestGapsQuiet(setup: SetupPacket, gaps: seq<seq<TickInputs>>)
    requires gaps != [] && QuietGaps(gaps, setup)
    ensures QuietGaps(gaps[1..], setup)
    ensures forall m :: 0 <= m < |gaps[0]| ==> Pulseless(gaps[0][m], setup)
  {
    forall k, m | 0 <= k < |gaps| - 1 && 0 <= m < |gaps[1..][k]|
      ensures Pulseless(gaps[1..][k][m], setup)
    {
      assert gaps[1..][k] == gaps[k + 1];
    }
  }

  lemma RestWaiting(r: HandlerRegs, setup: SetupPacket, stages: seq<TickInputs>, gaps: seq<seq<TickInputs>>)
    requires |stages| == |gaps| + 1 && gaps != []
    requires forall k :: 0 <= k < |gaps| && gaps[k] != [] ==> Waiting(RunTicks(r, stages[..k + 1]), setup)
    ensures forall k :: 0 <= k < |gaps| - 1 && gaps[1..][k] != [] ==>
      Waiting(RunTicks(NextRegs(r, stages[0]), stages[1..][..k + 1]), setup)
  {
    var s0, rest := stages[0], stages[1..];
    assert RunTicks(r, [s0]) == NextRegs(r, s0) by { assert [s0][1..] == []; }
    forall k | 0 <= k < |gaps| - 1 && gaps[1..][k] != []
      ensures Waiting(RunTicks(NextRegs(r, s0), rest[..k + 1]), setup)
    {
      assert stages[..k + 2] == [s0] + rest[..k + 1];
      RunTicksConcat(r, [s0], rest[..k + 1]);
      assert gaps[k + 1] == gaps[1..][k];
    }
  }

  /** A wait after stage `s0` is invisible: the ticks after it see the registers `s0` left. */
  lemma WaitSkipped(r: HandlerRegs, setup: SetupPacket, s0: TickInputs, wait: seq<TickInputs>, tail: seq<TickInputs>)
    requires forall m :: 0 <= m < |wait| ==> Pulseless(wait[m], setup)
    requires wait != [] ==> Waiting(NextRegs(r, s0), setup)
    ensures RunTicks(r, [s0] + wait) == NextRegs(r, s0)
    ensures OutAt(r, ([s0] + wait) + tail, 0) == Out(r, s0)
    ensures forall k :: 0 < k <= |wait| ==> Silent(OutAt(r, ([s0] + wait) + tail, k))
    ensures forall k :: 0 <= k < |tail| ==> OutAt(r, ([s0] + wait) + tail, 1 + |wait| + k) == OutAt(NextRegs(r, s0), tail, k)
  {
    WaitRegs(r, setup, s0, wait);
    assert (([s0] + wait) + tail)[..0] == [];
    WaitSilent(r, setup, s0, wait, tail);
    forall k | 0 <= k < |tail|
      ensures OutAt(r, ([s0] + wait) + tail, 1 + |wait| + k) == OutAt(NextRegs(r, s0), tail, k)
    {
      OutAtConcat(r, [s0] + wait, tail, k);
    }
  }

  lemma WaitRegs(r: HandlerRegs, setup: SetupPacket, s0: TickInputs, wait: seq<TickInputs>)
    requires forall m :: 0 <= m < |wait| ==> Pulseless(wait[m], setup)
    requires wait != [] ==> Waiting(NextRegs(r, s0), setup)
    ensures RunTicks(r, [s0]) == NextRegs(r, s0)
    ensures RunTicks(r, [s0] + wait) == NextRegs(r, s0)
  {
    assert RunTicks(r, [s0]) == NextRegs(r, s0) by { assert [s0][1..] == []; }
    if wait != [] {
      QuietTicksHold(NextRegs(r, s0), setup, wait);
    }
    RunTicksConcat(r, [s0], wait);
  }

  lemma WaitSilent(r: HandlerRegs, setup: SetupPacket, s0: TickInputs, wait: seq<TickInputs>, tail: seq<TickInputs>)
    requires forall m :: 0 <= m < |wait| ==> Pulseless(wait[m], setup)
    requires wait != [] ==> Waiting(NextRegs(r, s0), setup)
    ensures forall k :: 0 < k <= |wait| ==> Silent(OutAt(r, ([s0] + wait) + tail, k))
  {
    if wait != [] {
      var r1 := NextRegs(r, s0);
      QuietTicksHold(r1, setup, wait);
      assert RunTicks(r, [s0]) == r1 by { assert [s0][1..] == []; }
      assert ([s0] + wait) + tail == [s0] + (wait + tail);
      forall k | 0 < k <= |wait|
        ensures Silent(OutAt(r, ([s0] + wait) + tail, k))
      {
        OutAtConcat(r, [s0], wait + tail, k - 1);
        OutAtPrefix(r1, wait, tail, k - 1);
      }
    }
  }

  /** The stage ticks of a SET transfer. */
  function SetStages(setup: SetupPacket, payload: u16): seq<TickInputs>
  {
    [ NoPulse(setup).(setupReceived := true),                  // SETUP stage
      NoPulse(setup),                                         // the receiver is armed
      NoPulse(setup).(rxDone := true, rxData := payload),      // the data stage delivered
      NoPulse(setup).(rxReadyForResponse := true),             // the host waits for our ACK
      NoPulse(setup).(statusRequested := true),                // status stage: our ZLP
      NoPulse(setup).(ackReceived := true) ]                   // the host ACKs the ZLP
  }

  /**
   * A SET transfer with a wait of any length before each of its last four
   * stages. The receiver is armed on the tick after SETUP, whatever that tick
   * carries, so no wait comes between those two.
   */
  function SetTransfer(setup: SetupPacket, payload: u16, gaps: seq<seq<TickInputs>>): seq<TickInputs>
    requires |gaps| == 4
  {
    Paced(SetStages(setup, payload), [[]] + gaps)
  }

  /** The stage ticks of a GET transfer. */
  function GetStages(setup: SetupPacket): seq<TickInputs>
  {
    [ NoPulse(setup).(setupReceived := true),                  // SETUP stage
      NoPulse(setup).(dataRequested := true),                  // IN data stage
      NoPulse(setup).(ackReceived := true),                    // the host ACKs the IN data
      NoPulse(setup).(statusRequested := true) ]               // status stage: our ACK
  }

  /** A GET transfer with a wait of any length before its data, ACK and status stages. */
  function GetTransfer(setup: SetupPacket, gaps: seq<seq<TickInputs>>): seq<TickInputs>
    requires |gaps| == 3
  {
    Paced(GetStages(setup), gaps)
  }

  /**
   * The stage ticks of a SET with no data stage (wLength 0): the receiver is
   * still armed, then the status stage gets our ZLP and the host ACKs it.
   */
  function SetStagesNoData(setup: SetupPacket): seq<TickInputs>
  {
    [ NoPulse(setup).(setupReceived := true),                  // SETUP stage
      NoPulse(setup),                                         // the receiver is armed
      NoPulse(setup).(statusRequested := true),                // status stage: our ZLP
      NoPulse(setup).(ackReceived := true) ]                   // the host ACKs the ZLP
  }

  /** A SET with no data stage, with a wait of any length before its status and ACK stages. */
  function SetTransferNoData(setup: SetupPacket, gaps: seq<seq<TickInputs>>): seq<TickInputs>
    requires |gaps| == 2
  {
    Paced(SetStagesNoData(setup), [[]] + gaps)
  }

  /** The stage ticks of a GET with no data stage (wLength 0). */
  function GetStagesNoData(setup: SetupPacket): seq<TickInputs>
  {
    [ NoPulse(setup).(setupReceived := true),                  // SETUP stage
      NoPulse(setup).(statusRequested := true) ]               // status stage: our ACK
  }

  /** An eligible `CUR` request whose declared length matches the addressed control. */
  predicate WellFormedCur(setup: SetupPacket)
  {
    HandlerCondition(setup) && setup.request == CUR && setup.length == LengthForCurrent(setup)
  }

  /** A well-formed request is never stalled, however the host paces its ticks. */
  lemma {:induction false} WellFormedNeverStalls(r: HandlerRegs, setup: SetupPacket, ins: seq<TickInputs>)
    requires WellFormedCur(setup) && r.state != Unhandled
    requires forall k :: 0 <= k < |ins| ==> ins[k].setup == setup
    ensures forall k :: 0 <= k < |ins| ==> !OutAt(r, ins, k).stall
    decreases |ins|
  {
    if ins != [] {
      WellFormedNeverStalls(NextRegs(r, ins[0]), setup, ins[1..]);
      forall k | 0 <= k < |ins|
        ensures !OutAt(r, ins, k).stall
      {
        if k == 0 {
          assert ins[..0] == [];
        } else {
          assert ins == [ins[0]] + ins[1..];
          OutAtConcat(r, [ins[0]], ins[1..], k - 1);
          assert RunTicks(r, [ins[0]]) == NextRegs(r, ins[0]) by { assert [ins[0]][1..] == []; }
        }
      }
    }
  }

  /** The SET stages run back to back, with the registers after each. */
  lemma SetStagesRun(r: HandlerRegs, setup: SetupPacket, payload: u16)
    requires r.state == Idle && WellFormedCur(setup) && !setup.isIn
    ensures var st, kept := SetStages(setup, payload), SettingFromCurrent(setup, payload, r.powerState);
      RunTicks(r, st[..2]) == HandlerRegs(HandleCurrent, true, r.powerState) &&
      RunTicks(r, st[..3]) == HandlerRegs(HandleCurrent, true, kept) &&
      RunTicks(r, st[..4]) == HandlerRegs(HandleCurrent, true, kept) &&
      RunTicks(r, st[..5]) == HandlerRegs(HandleCurrent, true, kept) &&
      RunTicks(r, st) == HandlerRegs(Idle, true, kept) &&
      OutAt(r, st, 1).rxStart && OutAt(r, st, 3).ack && OutAt(r, st, 4).zlp
  {
    var ins := SetStages(setup, payload);
    assert ins[..1] == [ins[0]] && ins[..2] == ins[..1] + [ins[1]] && ins[..3] == ins[..2] + [ins[2]];
    assert ins[..4] == ins[..3] + [ins[3]] && ins[..5] == ins[..4] + [ins[4]] && ins == ins[..5] + [ins[5]];
    RunTicksAppend(r, [], ins[0]);
    RunTicksAppend(r, ins[..1], ins[1]);
    RunTicksAppend(r, ins[..2], ins[2]);
    RunTicksAppend(r, ins[..3], ins[3]);
    RunTicksAppend(r, ins[..4], ins[4]);
    RunTicksAppend(r, ins[..5], ins[5]);
  }

  /**
   * A well-formed SET completes without a stall however the host paces it:
   * the receiver is armed once, the OUT data is ACKed, the status stage gets a
   * ZLP, and the handler is back in IDLE with the payload committed (or
   * discarded for a foreign selector). The waits drive nothing.
   */
  lemma SetCompletes(r: HandlerRegs, setup: SetupPacket, payload: u16, gaps: seq<seq<TickInputs>>)
    requires r.state == Idle && WellFormedCur(setup) && !setup.isIn
    requires |gaps| == 4 && QuietGaps(gaps, setup)
    ensures var ins, gs := SetTransfer(setup, payload, gaps), [[]] + gaps;
      RunTicks(r, ins) == HandlerRegs(Idle, true, SettingFromCurrent(setup, payload, r.powerState)) &&
      (forall k :: 0 <= k < |ins| ==> !OutAt(r, ins, k).stall) &&
      OutAt(r, ins, StagePos(gs, 1)).rxStart && OutAt(r, ins, StagePos(gs, 3)).ack &&
      OutAt(r, ins, StagePos(gs, 4)).zlp
  {
    var st, gs := SetStages(setup, payload), [[]] + gaps;
    var ins := SetTransfer(setup, payload, gaps);
    SetStagesRun(r, setup, payload);
    NoFirstGapQuiet(setup, gaps);
    PacingIrrelevant(r, setup, st, gs);
    assert forall k :: 0 <= k < |st| ==> st[k].setup == setup;
    PacedKeepsSetup(setup, st, gs);
    WellFormedNeverStalls(r, setup, ins);
  }

  /** The GET stages run back to back, with the registers after each. */
  lemma GetStagesRun(r: HandlerRegs, setup: SetupPacket)
    requires r.state == Idle && WellFormedCur(setup) && setup.isIn
    ensures var st := GetStages(setup);
      RunTicks(r, st[..1]) == HandlerRegs(HandleCurrent, false, r.powerState) &&
      RunTicks(r, st[..2]) == HandlerRegs(HandleCurrent, false, r.powerState) &&
      RunTicks(r, st[..3]) == HandlerRegs(HandleCurrent, false, r.powerState) &&
      OutAt(r, st, 1) == Quiet.(txStart := true,
                                txData := SettingForCurrent(setup, r.powerState).0,
                                txMaxLength := LengthForCurrent(setup)) &&
      Silent(OutAt(r, st, 2)) &&
      OutAt(r, st, 3).ack && !OutAt(r, st, 3).stall && !OutAt(r, st, 3).txStart &&
      RunTicks(r, st) == r.(rxTriggered := false)
  {
    var ins := GetStages(setup);
    assert ins[..1] == [ins[0]] && ins[..2] == ins[..1] + [ins[1]] && ins[..3] == ins[..2] + [ins[2]];
    assert ins == ins[..3] + [ins[3]];
    RunTicksAppend(r, [], ins[0]);
    RunTicksAppend(r, ins[..1], ins[1]);
    RunTicksAppend(r, ins[..2], ins[2]);
    RunTicksAppend(r, ins[..3], ins[3]);
  }

  /**
   * A well-formed GET, however the host paces it, starts the transmitter with
   * the addressed setting, takes the host's ACK of the IN data without
   * answering it, ACKs the status stage and leaves the power state alone.
   * The waits drive nothing.
   */
  lemma GetReports(r: HandlerRegs, setup: SetupPacket, gaps: seq<seq<TickInputs>>)
    requires r.state == Idle && WellFormedCur(setup) && setup.isIn
    requires |gaps| == 3 && QuietGaps(gaps, setup)
    ensures var ins := GetTransfer(setup, gaps);
      OutAt(r, ins, StagePos(gaps, 1)) == Quiet.(txStart := true,
                                                 txData := SettingForCurrent(setup, r.powerState).0,
                                                 txMaxLength := LengthForCurrent(setup)) &&
      Silent(OutAt(r, ins, StagePos(gaps, 2))) &&
      OutAt(r, ins, StagePos(gaps, 3)).ack && !OutAt(r, ins, StagePos(gaps, 3)).stall &&
      (forall k :: 0 <= k < |ins| && k != StagePos(gaps, 1) ==> !OutAt(r, ins, k).txStart) &&
      RunTicks(r, ins) == r.(rxTriggered := false)
  {
    var st := GetStages(setup);
    var ins := GetTransfer(setup, gaps);
    GetStagesRun(r, setup);
    PacingIrrelevant(r, setup, st, gaps);
    forall k | 0 <= k < |ins| && k != StagePos(gaps, 1)
      ensures !OutAt(r, ins, k).txStart
    {
      if AtStage(gaps, k) {
        var j := StageIndex(gaps, k);
        assert OutAt(r, st, 0) == Quiet by { assert st[..0] == []; }
      }
    }
  }

  /** The stages of a SET with no data stage, back to back, with the registers after each. */
  lemma SetNoDataStagesRun(r: HandlerRegs, setup: SetupPacket)
    requires r.state == Idle && WellFormedCur(setup) && !setup.isIn && setup.length == 0
    ensures var st := SetStagesNoData(setup);
      RunTicks(r, st[..2]) == HandlerRegs(HandleCurrent, true, r.powerState) &&
      RunTicks(r, st[..3]) == HandlerRegs(HandleCurrent, true, r.powerState) &&
      RunTicks(r, st) == HandlerRegs(Idle, true, r.powerState) &&
      OutAt(r, st, 1).rxStart && OutAt(r, st, 1).rxMaxLength == 0 && OutAt(r, st, 2).zlp
  {
    var st := SetStagesNoData(setup);
    assert st[..1] == [st[0]] && st[..2] == st[..1] + [st[1]] && st[..3] == st[..2] + [st[2]];
    assert st == st[..3] + [st[3]];
    RunTicksAppend(r, [], st[0]);
    RunTicksAppend(r, st[..1], st[1]);
    RunTicksAppend(r, st[..2], st[2]);
    RunTicksAppend(r, st[..3], st[3]);
  }

  /**
   * A well-formed SET with no data stage, however the host paces it, never
   * stalls: the receiver is armed with length 0, the status stage gets a ZLP,
   * and the handler is back in IDLE with the power state unchanged.
   */
  lemma SetNoDataCompletes(r: HandlerRegs, setup: SetupPacket, gaps: seq<seq<TickInputs>>)
    requires r.state == Idle && WellFormedCur(setup) && !setup.isIn && setup.length == 0
    requires |gaps| == 2 && QuietGaps(gaps, setup)
    ensures var ins, gs := SetTransferNoData(setup, gaps), [[]] + gaps;
      RunTicks(r, ins) == HandlerRegs(Idle, true, r.powerState) &&
      (forall k :: 0 <= k < |ins| ==> !OutAt(r, ins, k).stall) &&
      OutAt(r, ins, StagePos(gs, 1)).rxStart && OutAt(r, ins, StagePos(gs, 1)).rxMaxLength == 0 &&
      OutAt(r, ins, StagePos(gs, 2)).zlp
  {
    var st, gs := SetStagesNoData(setup), [[]] + gaps;
    var ins := SetTransferNoData(setup, gaps);
    SetNoDataStagesRun(r, setup);
    NoFirstGapQuiet(setup, gaps);
    PacingIrrelevant(r, setup, st, gs);
    assert forall k :: 0 <= k < |st| ==> st[k].setup == setup;
    PacedKeepsSetup(setup, st, gs);
    WellFormedNeverStalls(r, setup, ins);
  }

  /**
   * A well-formed GET with no data stage, however long the host waits before
   * the status stage, is ACKed there and starts no transmitter.
   */
  lemma GetNoDataAcks(r: HandlerRegs, setup: SetupPacket, gap: seq<TickInputs>)
    requires r.state == Idle && WellFormedCur(setup) && setup.isIn && setup.length == 0
    requires forall m :: 0 <= m < |gap| ==> Pulseless(gap[m], setup)
    ensures var ins := Paced(GetStagesNoData(setup), [gap]);
      |ins| == |gap| + 2 &&
      OutAt(r, ins, |gap| + 1).ack && !OutAt(r, ins, |gap| + 1).stall &&
      (forall k :: 0 <= k < |ins| ==> !OutAt(r, ins, k).txStart) &&
      (forall k :: 0 <= k <= |gap| ==> Silent(OutAt(r, ins, k))) &&
      RunTicks(r, ins) == r.(rxTriggered := false)
  {
    var st := GetStagesNoData(setup);
    var ins := Paced(st, [gap]);
    assert st[..1] == [st[0]] && st == st[..1] + [st[1]];
    RunTicksAppend(r, [], st[0]);
    RunTicksAppend(r, st[..1], st[1]);
    assert QuietGaps([gap], setup);
    PacingIrrelevant(r, setup, st, [gap]);
    assert StagePos([gap], 1) == |gap| + 1;
    assert StagePos([gap], 0) == 0;
  }

  /** A SET of the power domain followed by a GET reads back the low byte of the payload. */
  lemma SetThenGetRoundTrip(r: HandlerRegs, setReq: SetupPacket, getReq: SetupPacket, payload: u16,
                            setGaps: seq<seq<TickInputs>>, getGaps: seq<seq<TickInputs>>)
    requires r.state == Idle
    requires WellFormedCur(setReq) && !setReq.isIn && AddressesPowerDomain(setReq)
    requires WellFormedCur(getReq) && getReq.isIn && AddressesPowerDomain(getReq)
    requires |setGaps| == 4 && QuietGaps(setGaps, setReq) && |getGaps| == 3 && QuietGaps(getGaps, getReq)
    ensures var afterSet := RunTicks(r, SetTransfer(setReq, payload, setGaps));
      var ins := GetTransfer(getReq, getGaps);
      OutAt(afterSet, ins, StagePos(getGaps, 1)).txStart &&
      OutAt(afterSet, ins, StagePos(getGaps, 1)).txData == payload % 0x100
  {
    SetCompletes(r, setReq, payload, setGaps);
    GetReports(RunTicks(r, SetTransfer(setReq, payload, setGaps)), getReq, getGaps);
  }

  /** Two GETs with no SET between them report the same value, however each is paced. */
  lemma GetIsIdempotent(r: HandlerRegs, get: SetupPacket, first: seq<seq<TickInputs>>, second: seq<seq<TickInputs>>)
    requires r.state == Idle && WellFormedCur(get) && get.isIn
    requires |first| == 3 && QuietGaps(first, get) && |second| == 3 && QuietGaps(second, get)
    ensures var again := RunTicks(r, GetTransfer(get, first));
      OutAt(again, GetTransfer(get, second), StagePos(second, 1)) ==
      OutAt(r, GetTransfer(get, first), StagePos(first, 1))
  {
    GetReports(r, get, first);
    GetReports(RunTicks(r, GetTransfer(get, first)), get, second);
  }

  /** The data-stage opportunity: the IN data request of a GET, or simply the next tick of a SET. */
  function DataStage(setup: SetupPacket): TickInputs
  {
    if setup.isIn then NoPulse(setup).(dataRequested := true) else NoPulse(setup)
  }

  /**
   * A SET or GET whose declared length differs from the control's stalls at
   * its first data-stage opportunity: a GET when the host requests data, after
   * a wait of any length, and a SET on its first tick in HANDLE_CURRENT, with
   * no pulse needed (so no wait comes between SETUP and the stall).
   */
  lemma LengthMismatchStalls(r: HandlerRegs, setup: SetupPacket, gap: seq<TickInputs>)
    requires r.state == Idle && HandlerCondition(setup) && setup.request == CUR
    requires setup.length != LengthForCurrent(setup)
    requires forall m :: 0 <= m < |gap| ==> Pulseless(gap[m], setup)
    ensures var ins := Paced([NoPulse(setup).(setupReceived := true), DataStage(setup)],
                             [if setup.isIn then gap else []]);
      var t := |ins| - 1;
      OutAt(r, ins, t).stall && !OutAt(r, ins, t).txStart && !OutAt(r, ins, t).rxStart &&
      (forall k :: 0 <= k < t ==> Silent(OutAt(r, ins, k))) &&
      RunTicks(r, ins) == r.(rxTriggered := false)
  {
    var st := [NoPulse(setup).(setupReceived := true), DataStage(setup)];
    var gs := [if setup.isIn then gap else []];
    MismatchStagesRun(r, setup);
    assert QuietGaps(gs, setup);
    PacingIrrelevant(r, setup, st, gs);
    assert StagePos(gs, 1) == |Paced(st, gs)| - 1;
    assert StagePos(gs, 0) == 0;
  }

  /** The SETUP and data-stage ticks of a mismatched `CUR`, back to back. */
  lemma MismatchStagesRun(r: HandlerRegs, setup: SetupPacket)
    requires r.state == Idle && HandlerCondition(setup) && setup.request == CUR
    requires setup.length != LengthForCurrent(setup)
    ensures var st := [NoPulse(setup).(setupReceived := true), DataStage(setup)];
      RunTicks(r, st[..1]) == HandlerRegs(HandleCurrent, false, r.powerState) &&
      OutAt(r, st, 0) == Quiet &&
      OutAt(r, st, 1).stall && !OutAt(r, st, 1).txStart && !OutAt(r, st, 1).rxStart &&
      RunTicks(r, st) == r.(rxTriggered := false)
  {
    var st := [NoPulse(setup).(setupReceived := true), DataStage(setup)];
    assert st[..1] == [st[0]] && st == st[..1] + [st[1]];
    assert st[..0] == [];
    RunTicksAppend(r, [], st[0]);
    RunTicksAppend(r, st[..1], st[1]);
  }

  /**
   * A request other than `CUR` passes through UNHANDLED and is stalled at the
   * host's first data or status request, however long the host waits for it.
   */
  lemma UnknownRequestStalls(r: HandlerRegs, setup: SetupPacket, gap: seq<TickInputs>, status: bool)
    requires r.state == Idle && HandlerCondition(setup) && setup.request != CUR
    requires forall m :: 0 <= m < |gap| ==> Pulseless(gap[m], setup)
    ensures var ins := Paced([NoPulse(setup).(setupReceived := true),
                              NoPulse(setup).(dataRequested := !status, statusRequested := status)], [gap]);
      |ins| == |gap| + 2 && RunTicks(r, ins[..1]).state == Unhandled &&
      (forall k :: 0 <= k <= |gap| ==> Silent(OutAt(r, ins, k))) &&
      OutAt(r, ins, |gap| + 1) == Quiet.(stall := true) &&
      RunTicks(r, ins) == r.(rxTriggered := false)
  {
    var st := [NoPulse(setup).(setupReceived := true),
               NoPulse(setup).(dataRequested := !status, statusRequested := status)];
    var ins := Paced(st, [gap]);
    assert st[..1] == [st[0]] && st == st[..1] + [st[1]];
    RunTicksAppend(r, [], st[0]);
    RunTicksAppend(r, st[..1], st[1]);
    assert QuietGaps([gap], setup);
    PacingIrrelevant(r, setup, st, [gap]);
    assert StagePos([gap], 1) == |gap| + 1;
    assert StagePos([gap], 0) == 0;
    assert ins[..1] == [st[0]];
  }

  /**
   * A request that is not a class request to an interface is invisible to the
   * handler: over any sequence of ticks carrying it, no register changes and
   * nothing is driven.
   */
  lemma {:induction false} IneligibleRequestIgnored(r: HandlerRegs, setup: SetupPacket, ins: seq<TickInputs>)
    requires !HandlerCondition(setup)
    requires forall k :: 0 <= k < |ins| ==> ins[k].setup == setup
    ensures RunTicks(r, ins) == r
    ensures forall k :: 0 <= k < |ins| ==> OutAt(r, ins, k) == Quiet
  {
    forall k | 0 <= k < |ins|
      ensures OutAt(r, ins, k) == Quiet
    {
      IneligiblePrefix(r, setup, ins[..k]);
    }
    IneligiblePrefix(r, setup, ins);
  }

  lemma {:induction false} IneligiblePrefix(r: HandlerRegs, setup: SetupPacket, ins: seq<TickInputs>)
    requires !HandlerCondition(setup)
    requires forall k :: 0 <= k < |ins| ==> ins[k].setup == setup
    ensures RunTicks(r, ins) == r
    decreases |ins|
  {
    if ins != [] {
      IneligiblePrefix(NextRegs(r, ins[0]), setup, ins[1..]);
    }
  }
}
